=== FILE: README.md ===
# UniqysKit core, modelled in Dafny

This project models the core of UniqysKit, a framework for building
blockchain applications ("dapps"). The model covers seven parts:

- **Merkle root** (`MerkleTree`, merkle.dfy). The root over a list of hashes uses
  an asymmetric power-of-two split, and a lone leaf is never hashed again.
- **Chain ledger** (`Blockchain`, blockchain.dfy). This is the not-ready/ready
  state machine over a block store. It covers genesis seeding, the accessors,
  the one-block delay of validator sets, and the tip/below rule of `consensusOf`.
- **Hashes and recoverable signatures** (`Cryptography`, signature.dfy, with the
  byte and hex helpers in `Bytes`, bytes.dfy). It covers:
  - the 65-byte Ethereum-compatible signature layout and its V byte (27/28);
  - the encoding of V from a recovery id and back;
  - serialization, equality, the zero hash and the hex round trip.
- **Nonce-based admission and execution** (`Controller`, controller.dfy). This is
  the easy framework's per-account nonce state machine:
  - validation;
  - order-preserving selection;
  - execution that rolls each failing transaction back to its pre-transaction
    root and raises the application height once per block.
- **Remote node set** (`RemoteNode`, remote_node.dfy). The known peers are kept
  in insertion order. It covers:
  - the idle flag of exclusive use;
  - best-node selection;
  - the provider and gossip-receiver selections, with every random choice
    turned into an explicit seed.
- **Validator pipeline** (`Validator`, validator.dfy). This covers initialization,
  execution, block construction, consensus rounds up to a steady state, and
  reached blocks checked against honestly executed state. The application is
  the test suite's `MockDapp`.
- **Optional** (`Optional`, optional.dfy). This is the tagged option type, its
  `match`, and its encoding with a one-byte label.

`Wrappers` (wrappers.dfy) holds the `Option` and `Result` types that every
operation uses for its error paths.

Some functions are foreign libraries in the source, so they are
function-typed parameters of the operations that use them:

- keccak256;
- the header and validator-set hashes;
- secp256k1 signing and recovery;
- transaction decoding;
- the dapp's HTTP round trip.

Because they are parameters, every property below holds for every choice of
them. Randomness is also a parameter: the source's random picks are a seed,
so a property stated for every seed is stated for every random outcome.

## Model

| member | source | states |
|---|---|---|
| MerkleTree.DoubleUntil | packages/blockchain/src/merkle-tree.ts:32-33 | The doubling loop, started at a power of two, stops at a power of two that is at least the bound, and below twice the bound unless no doubling was needed. |
| MerkleTree.SplitPoint | packages/blockchain/src/merkle-tree.ts:29-35 | For x ≥ 2 the split point s is a power of two with s < x ≤ 2s. So both halves of a split are non-empty and the left half has power-of-two size. |
| MerkleTree.SplitPointExamples | packages/blockchain/src/merkle-tree.ts:30-34 | splitPoint(2)=1, splitPoint(3)=2, splitPoint(4)=2, splitPoint(5)=4. |
| MerkleTree.SplitPointUnique | packages/blockchain/src/merkle-tree.ts:30 | The comment's characterisation "i = 2^n, i < x <= 2i" has exactly one solution, and splitPoint returns it. |
| MerkleTree.PowerOfTwoSplitsInHalf | packages/blockchain/src/merkle-tree.ts:29-35 | A list whose length is a power of two is split exactly in half. |
| MerkleTree.RootCases | packages/blockchain/src/merkle-tree.ts:16-28 | The empty list hashes the empty byte string. A single Hash is returned unchanged and a single hashable yields its `hash`, with no re-hash. A longer list hashes the concatenated roots of a power-of-two prefix, no shorter than the rest, and of that rest. |
| MerkleTree.BuildLeaves | packages/blockchain/src/merkle-tree.ts:12-27 | The tree behind the root holds every item exactly once and in order. No leaf is duplicated to pad a level, which is the CVE-2012-2459 fix, and no subtree is empty. |
| MerkleTree.Root | packages/blockchain/src/merkle-tree.ts:16-22 | The empty list hashes the empty byte string. A lone Hash is returned as it is and a lone hashable yields its own `hash`, so a leaf is never hashed again. |
| MerkleTree.RootIsTreeHash | packages/blockchain/src/merkle-tree.ts:16-28 | The root is the bottom-up hash of the tree laid over the items, which holds every item once and in order (see BuildLeaves). So it is a function of the item list alone. |
| MerkleTree.ThreeItems | packages/blockchain/src/merkle-tree.ts:18-27 | For three items the third item's hash is paired with the root of the first two, never with a copy of itself. |
| MerkleTree.ToInt32 | packages/blockchain/src/merkle-tree.ts:33 | JavaScript's shift result lies in the signed 32-bit range and equals its input when that input is already a non-negative int32. |
| MerkleTree.SplitPointLoopValue | packages/blockchain/src/merkle-tree.ts:32-33 | With 32-bit shifts and x = 2^30+1, after k turns the loop variable is 2^k for k ≤ 30, then -2^31, then 0 for good. |
| MerkleTree.SplitPointLoopNeverExits | packages/blockchain/src/merkle-tree.ts:32-34 | With 32-bit shifts and x = 2^30+1, the loop guard `i < x` holds after every turn. |
| MerkleTree.SplitPointAtLimit | packages/blockchain/src/merkle-tree.ts:29-35 | The intended split of 2^30+1 items is 2^30. |
| Bytes.ToHex | packages/signature/src/cryptography.ts:35-37 | Hex encoding gives two lower-case hex digits per byte. |
| Bytes.FromHexToHex | packages/signature/src/cryptography.ts:32-37 | Decoding the hex text of any byte string gives the bytes back. |
| Bytes.FromHexStopsAtBadDigit | packages/signature/src/cryptography.ts:32-34 | Node's hex decoding stops at the first character that is not a hex digit and keeps the bytes decoded before it. |
| Cryptography.ZeroHash | packages/signature/src/cryptography.ts:25 | `Hash.zero` is 32 zero bytes. |
| Cryptography.ToHexString | packages/signature/src/cryptography.ts:35-37 | A hash prints as 64 lower-case hex digits. |
| Cryptography.FromHexString | packages/signature/src/cryptography.ts:32-34 | Parsing succeeds exactly when the hex decoding yields 32 bytes, and the hash is then those bytes. Otherwise it fails with the length error of the fixed-width constructor. |
| Cryptography.HexRoundTrip | packages/signature/src/cryptography.ts:32-37 | `fromHexString(h.toHexString())` equals h for every hash. |
| Cryptography.ZeroHashHex | packages/signature/src/cryptography.ts:25-37 | The zero hash prints as 64 zeros, and 64 zeros parse back to it. |
| Cryptography.NewSignature | packages/signature/src/cryptography.ts:48-56 | A buffer is accepted exactly when it is 65 bytes long with V ∈ {27, 28}. Otherwise the length error comes first and the V error second. |
| Cryptography.SignatureHash | packages/signature/src/cryptography.ts:55 | A signature's `hash` is keccak of its 64 signature bytes followed by its recovery byte, so it covers V too. |
| Cryptography.SignatureBytes | packages/signature/src/cryptography.ts:46 | The signature bytes are the first 64 bytes, and followed by V they make up the buffer. |
| Cryptography.Recovery | packages/signature/src/cryptography.ts:47-54 | The recovery byte of a constructed signature is 27 or 28. |
| Cryptography.VEncodingInverse | packages/signature/src/cryptography.ts:64-79 | Encoding a recovery id as id+27 and decoding V with (V+1)%2 are inverse on {0,1} and {27,28}. |
| Cryptography.Sign | packages/signature/src/cryptography.ts:59-66 | Signing succeeds exactly when the curve's recovery id is 0 or 1. The result carries the curve's 64 bytes, and its V decodes back to the recovery id. |
| Cryptography.Recover | packages/signature/src/cryptography.ts:77-83 | Recovery asks the curve about the 64 signature bytes and the decoded V. It succeeds exactly when the curve returns a 65-byte uncompressed key, and the result is the 64 bytes after its prefix byte. A throw or a key of any other length is the one recovery error. |
| Cryptography.SignThenRecover | packages/signature/src/cryptography.ts:59-83 | Recovering a fresh signature asks the curve exactly the bytes and recovery id its own signing produced. |
| Cryptography.Serialize | packages/signature/src/cryptography.ts:71-73 | Serializing appends exactly the 65-byte buffer to the writer. |
| Cryptography.Deserialize | packages/signature/src/cryptography.ts:68-70 | Deserializing consumes exactly 65 bytes and runs them through the constructor. A malformed prefix gives the constructor's V error, and a short reader is an error. |
| Cryptography.SerializeRoundTrip | packages/signature/src/cryptography.ts:68-73 | Deserializing a serialized signature gives it back and leaves the following bytes unread. |
| Cryptography.Equals | packages/signature/src/cryptography.ts:74-76 | Two signatures are equal exactly when their buffers agree byte by byte. |
| Blockchain.Seed | packages/blockchain/src/blockchain.ts:23-32 | On height 0 the genesis header and body are written at height 1. The height pointer is untouched, and the initial validator set is always stored under its root. |
| Blockchain.Ready | packages/blockchain/src/blockchain.ts:21-38 | A ready chain returns at once. Otherwise the store is seeded, and the chain becomes ready exactly when the header stored at 1 hashes like the configured genesis. The seeding writes survive a failure. |
| Blockchain.ReadyOnFreshStore | packages/blockchain/src/blockchain.test.ts:47-53 | On an empty store `ready()` succeeds, writes genesis and the validator set, and leaves height 0. |
| Blockchain.ReadyIdempotent | packages/blockchain/src/blockchain.ts:22-32 | Calling `ready()` a second time changes nothing, after success and after failure alike. |
| Blockchain.RestoreFromStore | packages/blockchain/src/blockchain.test.ts:54-65 | A new ledger over a store holding the same genesis becomes ready with the stored height. |
| Blockchain.OtherChainRejected | packages/blockchain/src/blockchain.test.ts:66-78 | A store holding another genesis makes `ready()` fail, and the ledger stays not ready. |
| Blockchain.HeaderOf | packages/blockchain/src/blockchain.ts:43-45 | `headerOf` returns the stored header, and fails exactly when none is stored. It has no ready check. |
| Blockchain.BodyOf | packages/blockchain/src/blockchain.ts:46-48 | `bodyOf` returns the stored body, and fails exactly when none is stored. It has no ready check. |
| Blockchain.HashOf | packages/blockchain/src/blockchain.ts:40-42 | `hashOf(h)` is the hash of `headerOf(h)` and fails with it. |
| Blockchain.BlockOf | packages/blockchain/src/blockchain.ts:49-56 | After the ready check, `blockOf` succeeds exactly when both header and body are stored. |
| Blockchain.ValidatorSetOf | packages/blockchain/src/blockchain.ts:57-64 | The set in force at h is the one stored under the `nextValidatorSetRoot` of header h-1, or of header 1 for h = 1. |
| Blockchain.ConsensusOf | packages/blockchain/src/blockchain.ts:65-78 | At the tip the answer is the stored last consensus. Below the tip it is the `lastBlockConsensus` of body h+1. |
| Blockchain.Height | packages/blockchain/src/blockchain.ts:79-84 | The height is the store's height pointer, and only for a ready chain. |
| Blockchain.NotReadyGuards | packages/blockchain/src/blockchain.ts:85-87 | `height`, `blockOf`, `validatorSetOf` and `consensusOf` fail with "not ready" before `ready()`. |
| Blockchain.Append | packages/blockchain/src/blockchain.test.ts:17-26 | Appending writes header and body at the block's height and moves the height pointer. Every other height is unchanged. |
| Blockchain.ValidatorSetOneBlockDelay | packages/blockchain/src/blockchain.ts:57-64 | After appending block h, which announces a set, that set is in force from h+1. The set at h is always read through the root announced by header h-1, and it is unchanged when that root differs from the new one. |
| Blockchain.ConsensusOfTipAndBelow | packages/blockchain/src/blockchain.ts:68-76 | After appending block h, the consensus of h is the stored one. The consensus of h-1 is the one block h carries. |
| Blockchain.AppendThenRead | packages/blockchain/src/blockchain.test.ts:109-118 | After appending, `blockOf`, `hashOf` and `height` read back the block. |
| Blockchain.RestoreAfterAppend | packages/blockchain/src/blockchain.test.ts:54-65 | After appends above genesis, a ledger rebuilt over the same store becomes ready at the appended height. |
| Controller.ValidateTransaction | packages/easy-framework/src/controller.ts:32-42 | Validation returns true exactly when the data decodes and its nonce is above the signer's stored nonce. A decode failure yields false, not an error. |
| Controller.SelectTransactions | packages/easy-framework/src/controller.ts:43-57 | The output is exactly the inputs whose nonce is the stored nonce + 1, in input order. It is none when nothing qualifies, and the call fails when some data does not decode. |
| Controller.EligibleInMembers | packages/easy-framework/src/controller.ts:44-51 | A transaction is selected exactly when it is an input with the next nonce. |
| Controller.SelectedAreValid | packages/easy-framework/src/controller.ts:36-48 | Every selected transaction also passes validation. |
| Controller.ExecuteOne | packages/easy-framework/src/controller.ts:58-80 | A wrong nonce changes only the mode, and a request that throws does the same. An answer is recorded under the transaction hash. With a 4xx/5xx status the nonce and key space are rolled back; otherwise the bumped nonce and the application's new key space are kept. The mode is read-only afterwards in every case. |
| Controller.ErrorResponseRecorded | packages/easy-framework/src/controller.ts:72-76 | A 4xx/5xx answer is rolled back out of the store but stays recorded as the transaction's result. |
| Controller.ExecuteAll | packages/easy-framework/src/controller.ts:59-81 | Running a list succeeds exactly when every transaction decodes, whatever each one's outcome. It keeps the height, ends in read-only mode and never lowers a nonce. |
| Controller.ExecuteTransactions | packages/easy-framework/src/controller.ts:58-84 | The app height rises by exactly one per call when everything decodes, and nonces never decrease. |
| Controller.ExecuteAllAppend | packages/easy-framework/src/controller.ts:59-81 | Running two lists in turn equals running their concatenation: a failed transaction does not affect the ones after it. |
| Controller.ReplayHasNoEffect | packages/easy-framework/src/controller.ts:65-76 | With a deterministic application, a transaction repeated right after itself leaves the state exactly as a single run does, recorded results included. |
| Controller.RepeatAppliesAtMostOnce | packages/easy-framework/src/controller.ts:65-76 | Even when the application answers the two runs differently, running a transaction twice raises its signer's nonce by at most one and moves no other account's nonce. |
| Controller.HeightOncePerBlock | packages/easy-framework/src/controller.ts:82 | An empty block still raises the height by one. |
| RemoteNode.NewNode | packages/chain-core/src/remote-node.test.ts:51-53 | A new remote node is idle, with the given id and height. |
| RemoteNode.Get | packages/chain-core/src/remote-node.test.ts:63-64 | `get` finds a member exactly when one has that peer id. |
| RemoteNode.Add | packages/chain-core/src/remote-node.test.ts:55-65 | An unknown peer is appended at the end, and a known one is replaced at its own position. Ids stay distinct, and other lookups are unchanged. |
| RemoteNode.Filter | packages/chain-core/src/remote-node.test.ts:65-68 | A filter keeps exactly the members meeting its criterion, in set order and with no member repeated. |
| RemoteNode.FilterAppend | packages/chain-core/src/remote-node.test.ts:65-68 | Filtering a concatenation is the concatenation of the filtered parts. |
| RemoteNode.Delete | packages/chain-core/src/remote-node.test.ts:66-68 | Exactly the members with that peer id are removed. The rest keep their order, ids stay distinct, and deleting an unknown id changes nothing. |
| RemoteNode.DeleteUndoesAdd | packages/chain-core/src/remote-node.test.ts:55-68 | Adding a new peer and then deleting it gives back the set it was added to, order included. |
| RemoteNode.Size | packages/chain-core/src/remote-node.test.ts:58-62 | `size` is the number of distinct peer ids, and 0 exactly for the empty set. |
| RemoteNode.AddGetDeleteExample | packages/chain-core/src/remote-node.test.ts:55-69 | In the three-peer walk-through, insertion order is kept and the lookups and the delete behave as the test asserts. |
| RemoteNode.Use | packages/chain-core/src/remote-node.test.ts:34-43 | While in use a member is not idle and keeps its id and height. Ids stay distinct, and an unknown peer id changes nothing. |
| RemoteNode.Release | packages/chain-core/src/remote-node.test.ts:38-40 | After use a member is idle again. |
| RemoteNode.BestNode | packages/chain-core/src/remote-node.test.ts:70-78 | The best node is a member of greatest height, and the first such member in set order. It is absent only for an empty set. |
| RemoteNode.PickProvider | packages/chain-core/src/remote-node.test.ts:88-101 | The pick is a member at or above the height, and is absent exactly when no member qualifies. |
| RemoteNode.ChooseReachesAll | packages/chain-core/src/remote-node.test.ts:96-100 | Every qualifying member is the pick for some seed. |
| RemoteNode.PickIdleProvider | packages/chain-core/src/remote-node.test.ts:102-115 | The pick is an idle member at or above the height, and is absent exactly when none qualifies. |
| RemoteNode.InUseNeverPicked | packages/chain-core/src/remote-node.test.ts:110-113 | A member in use is never the idle pick, whatever the seed. |
| RemoteNode.ReleasedCanBePicked | packages/chain-core/src/remote-node.test.ts:36-41 | Once released, a member high enough is again the idle pick for some seed. |
| RemoteNode.Sample | packages/chain-core/src/remote-node.test.ts:128-136 | Drawing without replacement gives min(count, size) members, with no member repeated beyond its occurrences. |
| RemoteNode.PickTransactionReceivers | packages/chain-core/src/remote-node.test.ts:116-137 | There are `count` receivers, or all members when count exceeds the size. All are members, and none appears more often than in the set. |
| RemoteNode.TransactionReceiversAll | packages/chain-core/src/remote-node.test.ts:122-127 | With the fan-out equal to the size (exponent 1), every member receives the transaction. |
| RemoteNode.PickBlockReceivers | packages/chain-core/src/remote-node.test.ts:138-164 | The receivers come only from members below the known height, and there are min(count, number of such members) of them without repetition. |
| RemoteNode.BlockReceiversAll | packages/chain-core/src/remote-node.test.ts:145-149 | With the fan-out equal to the number of members below the known height (exponent 1), every such member receives the block. |
| RemoteNode.PickConsensusReceivers | packages/chain-core/src/remote-node.test.ts:165-179 | The receivers are exactly the members at height h-1, in set order. None is repeated, so each such peer receives the consensus once. |
| RemoteNode.SelectionExample | packages/chain-core/src/remote-node.test.ts:88-179 | On heights {0, 2, 1} the providers, block receivers and consensus receivers are those the tests assert. |
| Validator.Execute | src/chain-core/validator.test.ts:23-29 | The mock application counts one per transaction and one height per block. |
| Validator.Initialize | src/chain-core/validator.test.ts:179-185 | Initialization fails with "need reset app" exactly when the application is ahead of the chain. Otherwise the executed height becomes the application's height. |
| Validator.ExecuteBlockTransactions | src/chain-core/validator.test.ts:170-193 | Execution fails when not initialized or when everything is executed. It fails with "block height mismatch" exactly when the application was not at the executed height, and the application has still run. Otherwise the executed height rises by one. |
| Validator.ConstructBlock | src/chain-core/validator.test.ts:161-169 | Construction fails before initialization and before the tip is executed. Otherwise it proposes the next height with the whole pool and the current state hash. |
| Validator.Commit | src/chain-core/validator.test.ts:129-135 | Committing appends the block and removes exactly its transactions from the pool. |
| Validator.ProceedConsensus | src/chain-core/validator.test.ts:101-160 | A round fails before initialization. Otherwise it executes one block, or commits one block holding the pool and the state before it, or reports steady exactly when nothing is due. |
| Validator.UntilSteady | src/chain-core/validator.test.ts:101-113 | Success leaves every block executed and no block due. It fails with "need reset app" for an application ahead of the chain, and the height never drops. |
| Validator.AddReachedBlock | src/chain-core/validator.test.ts:114-154 | A block at a known height is accepted without change exactly when it is the block held there. The next block is accepted only when its state hash matches the state after executing every held block, and then the pool loses its transactions. A block refused as invalid leaves the chain as it was. |
| Validator.AddTransaction | src/chain-core/validator.test.ts:93-100 | A new transaction grows the pool by exactly one and is then in it. A pooled one is not added twice. |
| Validator.AddTransactionKeepsPoolDistinct | src/chain-core/validator.test.ts:93-100 | Pool entries stay distinct. |
| Validator.Replay | src/chain-core/validator.test.ts:23-29 | Replaying k blocks raises the application height by k. |
| Validator.NewNodeConsistent | src/chain-core/validator.test.ts:72-84 | A fresh node over a genesis block and an application at height 0 is honest. |
| Validator.ConsistentNeverMismatches | src/chain-core/validator.test.ts:179-193 | In an honest node neither "need reset app" nor "block height mismatch" can occur. |
| Validator.ExecutePreservesConsistent | src/chain-core/validator.test.ts:170-193 | Execution keeps the node honest. |
| Validator.CommitPreservesConsistent | src/chain-core/validator.test.ts:101-113 | Committing a block that records the executed state keeps the node honest. |
| Validator.ProceedPreservesConsistent | src/chain-core/validator.test.ts:101-113 | Every consensus round keeps the node honest. |
| Validator.UntilSteadyPreservesConsistent | src/chain-core/validator.test.ts:101-113 | Running to a steady state keeps the node honest. In an honest node every block above genesis records the state its predecessors produce. |
| Validator.AddReachedBlockSafety | src/chain-core/validator.test.ts:142-154 | An honest node accepts the next block exactly when its state hash is the honest post-state of the whole chain, and stays honest either way. |
| Validator.AddReachedBlockIdempotent | src/chain-core/validator.test.ts:131-134 | Adding an accepted block again succeeds and changes nothing. |
| Validator.ConflictingBlockRejected | src/chain-core/validator.test.ts:142-154 | A block that differs from the one held at its height is "invalid block", and the height stays. |
| Validator.StateHashText | src/chain-core/validator.test.ts:15-17 | The mock state hash is keccak of "state: " followed by the decimal transaction count. |
| Validator.GuardExamples | src/chain-core/validator.test.ts:157-193 | The private error cases: "not initialized" for every stage, no block before the genesis block is executed, "need reset app" at application height 10, and "block height mismatch" after the application height is moved. |
| Validator.SettledHasNothingToExecute | src/chain-core/validator.test.ts:174-178 | Once steady, asking to execute fails. |
| Validator.ProceedConsensusScenario | src/chain-core/validator.test.ts:101-113 | With two pooled transactions a node settles at height 3. Block 2 holds both transactions, block 3 records H("state: 2"), and the pool is empty. |
| Validator.AddReachedBlockScenario | src/chain-core/validator.test.ts:114-140 | A peer's block 2 is accepted and empties the pool, with the application still at H("state: 0"). Re-adding it is a no-op, and settling then reaches height 3 at H("state: 2"). |
| Validator.EmptyPoolSettles | src/chain-core/validator.test.ts:143-152 | With an empty pool a fresh node settles after one proof block. |
| Validator.TamperedBlockScenario | src/chain-core/validator.test.ts:142-154 | The block of a peer whose application counted one transaction too many is refused as "invalid block" by an honest node at the same height. |
| Optional.Match | src/structure/optional.test.ts:11-14 | `some(v).match(f, g)` is f(v) and `none().match(f, g)` is g(). |
| Optional.MatchIdentity | src/structure/optional.test.ts:11-14 | Matching with the two constructors as branches gives back the original optional. |
| Optional.Serialize | src/structure/optional.test.ts:19-24 | The encoding starts with the label byte, 1 for some and 0 for none, followed by the value's own bytes for some. |
| Optional.Deserialize | src/structure/optional.test.ts:19-31 | An empty buffer and a label above 1 are errors, and label 0 reads as none using one byte. Label 1 reads the value after it with one byte more, and a value decode error is passed on unchanged. |
| Optional.SerializeRoundTrip | src/structure/optional.test.ts:19-25 | For any value codec that round-trips, an optional reads back as itself using exactly its own bytes. |
| Optional.BadLabelRejected | src/structure/optional.test.ts:26-31 | A label of 2 or more is rejected whatever the value codec. |
| Optional.UInt8RoundTrips | src/structure/optional.test.ts:20-21 | The one-byte integer codec round-trips. |
| Optional.SuiteExamples | src/structure/optional.test.ts:5-31 | The test cases: match results, `hasValue`, the encodings [1, 42] and [0], and the rejection of [2, 42]. |

## Left out

- Hashes and curve operations: keccak256 and secp256k1 are parameters. `KeyPair` key generation (random bytes until the curve accepts them), `publicKeyCreate` and `Address.fromPublicKey` are not modelled, because they are randomness and foreign code.
- Cryptography.FromHexString: `Bytes32` is not part of this model. Its constructor is taken to reject any length other than 32 with a type error, like the `Signature` constructor does for 65.
- Controller.ExecuteOne: `state.result` is taken to lie outside the root that `rollback` restores, because it is written separately from `state.top` and the `State` class is not part of this model. So an error response stays recorded after the rollback.
- Cryptography.Deserialize: `BufferReader` is not part of this model. Reading 65 bytes from a shorter reader is taken to fail, and that failure is the `ShortRead` error.
- Reader/writer locks in blockchain.ts and controller.ts: each locked section is one atomic step. Concurrency is not modelled.
- The block store implementation is not part of this model. It is a record of maps whose missing keys are the "not found" errors.
- Controller: the HTTP round trip (`SignedRequest.unpack`, `Response.pack`) and the memcached mode switching are an oracle and a mode flag. `State` is not part of this model. An unknown account reads as nonce 0, and `getAccount` is taken never to fail, so only decoding can fail.
- Controller.ReplayHasNoEffect: the application is taken to be deterministic. The same key space, transaction and header give the same answer, and a request that fails fails again. The HTTP call in controller.ts:71 can fail transiently, and for that case `Controller.RepeatAppliesAtMostOnce` gives the weaker promise that the nonce rises at most once.
- Controller.ExecuteAll: an undecodable transaction stops the loop and no height increment follows. The source throws out of `executeTransactions` at that point, which the model returns as an error.
- `RemoteNode` implementation (remote-node.ts) is not part of this model. Its behaviour comes from its tests. The set is an insertion-ordered map keyed by peer id. Random picks are seeds.
- RemoteNode.PickTransactionReceivers: the fan-out `floor(n ^ exponent)` is floating point, so the count is an input. The results are only bounded by size and membership, not by the exponent.
- RemoteNode.PickBlockReceivers: the fan-out `floor(b ^ exponent)`, over the b members below the known height, is floating point, so the count is an input. Only the exponent-1 case, where every such member receives the block, is stated.
- RemoteNode.BestNode: when several members share the greatest height, returning the first in set order is a choice of the model. The tests only use distinct heights. The test's raising of a node's height through the shared object is modelled by adding the changed node again.
- RemoteNode.Use: the asynchronous task is not modelled. `Use` and `Release` stand for its start and its settling.
- `ValidatorNode` implementation (validator.ts) is not part of this model. The pipeline is reconstructed from its tests, with one validator holding all voting power:
  - a block is due when the pool is non-empty or the tip does not record the current application state;
  - a reached block at a known height must equal the block held there;
  - the next block is checked after executing every held block;
  - `addReachedBlock` initializes a node that is not yet initialized, as its test calls it on a fresh node.
- Validator.AddTransaction: the pool is taken to hold each transaction once. Transaction validation by the application is not modelled, because `MockDapp` has none.
- Validator.UntilSteady: the number of rounds is bounded by a fuel argument. Running out of fuel is the `Unsteady` error, which the source, looping without bound, never reports.
- Validator: block headers other than height and `appStateHash` (timestamps, hashes, signatures), the precommit quorum rule, the synchronizer and the `Node` start/stop main loop are not modelled. They live in files that are not part of this model, or they are scheduling.
- `Optional` implementation (optional.ts) is not part of this model. The labels none = 0 and some = 1 are assumed, and the tests pin only that label 2 is rejected.
- The networking wiring of chain-core, NAT traversal, configuration loading, the sample applications and the web3 client are outside the modelled core.

## Findings

| source | as written | input that shows it | evidently intended | confidence | as-written member | corrected member |
|---|---|---|---|---|---|---|
| packages/blockchain/src/merkle-tree.ts:32-34 | `i <<= 1` is a 32-bit signed shift in JavaScript | a list of 2^30 + 1 items: `i` reaches 2^30, wraps to -2^31 and then to 0, so `i < x` never fails and `splitPoint` does not return | the largest power of two below x, 2^30 here | high for lists longer than 2^30 items, which are far beyond practical block sizes; not executed | MerkleTree.SplitPointLoopNeverExits | MerkleTree.SplitPoint |

=== FILE: blockchain.dfy ===
/** The chain ledger: a not-ready/ready state machine over an abstract block
    store holding headers and bodies by height, the height pointer, the
    consensus record of the tip and the validator sets keyed by their root.

    Each section the source runs under the store's reader/writer lock is
    one atomic step here. Header hashes and validator-set roots are keccak
    over encodings the model does not spell out; they enter as the
    function-typed fields of `Hashers`. */
module Blockchain {
  import opened Wrappers
  import opened Bytes
  import opened Cryptography

  // ---------------------------------------------------------------------
  // Data model
  // ---------------------------------------------------------------------

  datatype Vote = Vote(height: nat, round: nat, blockHash: Hash)

  /** A vote with the signatures of the validators that precommitted it. */
  datatype Consensus = Consensus(vote: Vote, signatures: seq<Signature>)

  datatype Validator = Validator(address: seq<Byte>, power: nat)

  datatype ValidatorSet = ValidatorSet(validators: seq<Validator>)

  datatype Header = Header(
    height: nat,
    timestamp: nat,
    lastBlockHash: Hash,
    transactionsRoot: Hash,
    lastConsensusHash: Hash,
    nextValidatorSetRoot: Hash,
    appStateHash: Hash)

  datatype Body = Body(transactions: seq<seq<Byte>>, lastBlockConsensus: Consensus)

  datatype Block = Block(header: Header, body: Body)

  /** `header.hash` (which is also `block.hash`) and `validatorSet.hash`. */
  datatype Hashers = Hashers(header: Header -> Hash, validatorSet: ValidatorSet -> Hash)

  /** The block store. A height that was never written reads as 0; the
      other slots read as missing. Headers and bodies are keyed by any
      integer, since callers may ask for height 0 or -1. */
  datatype BlockStore = BlockStore(
    headers: map<int, Header>,
    bodies: map<int, Body>,
    height: nat,
    lastConsensus: Option<Consensus>,
    validatorSets: map<Hash, ValidatorSet>)

  const EmptyStore := BlockStore(map[], map[], 0, None, map[])

  datatype Chain = Chain(
    store: BlockStore,
    genesis: Block,
    initialValidatorSet: ValidatorSet,
    isReady: bool)

  datatype ChainError =
    | NotReady          // 'blockchain is not ready'
    | NotFound          // the store has nothing under the key
    | GenesisInvalid    // 'Stored genesis block is invalid. You need to reset store.'

  /** The chain after a step, and what the step returned. A failed step can
      still have written to the store. */
  datatype Step<T> = Step(chain: Chain, result: Result<T, ChainError>)

  function NewChain(store: BlockStore, genesis: Block, initial: ValidatorSet): Chain {
    Chain(store, genesis, initial, false)
  }

  // ---------------------------------------------------------------------
  // ready()
  // ---------------------------------------------------------------------

  /** The write-locked section of `ready()`: seed the genesis block at
      height 1 when the height is 0 (the height itself stays 0), then store
      the initial validator set under its root. */
  function Seed(hs: Hashers, c: Chain): (s: BlockStore)
    ensures s.height == c.store.height && s.lastConsensus == c.store.lastConsensus
    ensures c.store.height == 0 ==> 1 in s.headers && s.headers[1] == c.genesis.header
    ensures c.store.height == 0 ==> 1 in s.bodies && s.bodies[1] == c.genesis.body
    ensures c.store.height != 0 ==> s.headers == c.store.headers && s.bodies == c.store.bodies
    ensures forall h :: h != 1 ==> (h in s.headers <==> h in c.store.headers)
    ensures s.validatorSets == c.store.validatorSets[hs.validatorSet(c.initialValidatorSet) := c.initialValidatorSet]
  {
    var st := c.store;
    var seeded :=
      if st.height == 0 then st.(headers := st.headers[1 := c.genesis.header], bodies := st.bodies[1 := c.genesis.body])
      else st;
    seeded.(validatorSets := seeded.validatorSets[hs.validatorSet(c.initialValidatorSet) := c.initialValidatorSet])
  }

  /** `Blockchain#ready`. Returns at once when already ready. Otherwise
      seeds the store, then compares the header stored at height 1 with the
      configured genesis by hash; on a mismatch the seeding writes stay but
      the chain stays not ready. */
  function Ready(hs: Hashers, c: Chain): (r: Step<()>)
    ensures c.isReady ==> r == Step(c, Ok(()))
    ensures r.chain.genesis == c.genesis && r.chain.initialValidatorSet == c.initialValidatorSet
    ensures r.chain.store.height == c.store.height
    ensures r.result.Ok? <==> r.chain.isReady
    ensures !c.isReady ==> r.chain.store == Seed(hs, c)
    ensures !c.isReady ==> (r.result.Ok? <==>
      1 in Seed(hs, c).headers && hs.header(Seed(hs, c).headers[1]) == hs.header(c.genesis.header))
    ensures r.result.Err? ==> r.result.error != NotReady
  {
    if c.isReady then Step(c, Ok(()))
    else
      var s := Seed(hs, c);
      var c' := c.(store := s);
      if 1 !in s.headers then Step(c', Err(NotFound))
      else if hs.header(s.headers[1]) != hs.header(c.genesis.header) then Step(c', Err(GenesisInvalid))
      else Step(c'.(isReady := true), Ok(()))
  }

  /** On an empty store `ready()` succeeds, writes the genesis header and
      body at height 1 and the initial validator set, and leaves the height
      at 0. */
  lemma ReadyOnFreshStore(hs: Hashers, genesis: Block, initial: ValidatorSet)
    ensures var r := Ready(hs, NewChain(EmptyStore, genesis, initial));
      && r.result.Ok? && r.chain.isReady
      && r.chain.store.height == 0
      && r.chain.store.headers == map[1 := genesis.header]
      && r.chain.store.bodies == map[1 := genesis.body]
      && r.chain.store.validatorSets == map[hs.validatorSet(initial) := initial]
      && Height(r.chain) == Ok(0)
  {
  }

  /** Calling `ready()` again changes nothing, whether the first call
      succeeded or failed: the seeding writes are idempotent. */
  lemma ReadyIdempotent(hs: Hashers, c: Chain)
    ensures Ready(hs, Ready(hs, c).chain) == Ready(hs, c)
  {
    var r := Ready(hs, c);
    if !c.isReady && r.result.Err? {
      var c1 := r.chain;
      assert Seed(hs, c1) == Seed(hs, c);
    }
  }

  /** A new ledger over a store whose height-1 header hashes like the
      configured genesis becomes ready and reports the stored height: the
      chain restores from its store. */
  lemma RestoreFromStore(hs: Hashers, store: BlockStore, genesis: Block, initial: ValidatorSet)
    requires store.height == 0 || (1 in store.headers && hs.header(store.headers[1]) == hs.header(genesis.header))
    ensures var r := Ready(hs, NewChain(store, genesis, initial));
      r.result.Ok? && Height(r.chain) == Ok(store.height)
  {
  }

  /** A store that already holds another chain (a different genesis hash at
      height 1, height at least 1) makes `ready()` fail, and the ledger stays
      not ready. */
  lemma OtherChainRejected(hs: Hashers, store: BlockStore, genesis: Block, initial: ValidatorSet)
    requires store.height >= 1 && 1 in store.headers
    requires hs.header(store.headers[1]) != hs.header(genesis.header)
    ensures var r := Ready(hs, NewChain(store, genesis, initial));
      r.result == Err(GenesisInvalid) && !r.chain.isReady && Height(r.chain) == Err(NotReady)
  {
  }

  // ---------------------------------------------------------------------
  // Accessors
  // ---------------------------------------------------------------------

  /** `headerOf`: no ready check. */
  function HeaderOf(c: Chain, height: int): (r: Result<Header, ChainError>)
    ensures r.Ok? <==> height in c.store.headers
    ensures r.Ok? ==> r.value == c.store.headers[height]
    ensures r.Err? ==> r.error == NotFound
  {
    if height in c.store.headers then Ok(c.store.headers[height]) else Err(NotFound)
  }

  /** `bodyOf`: no ready check. */
  function BodyOf(c: Chain, height: int): (r: Result<Body, ChainError>)
    ensures r.Ok? <==> height in c.store.bodies
    ensures r.Ok? ==> r.value == c.store.bodies[height]
    ensures r.Err? ==> r.error == NotFound
  {
    if height in c.store.bodies then Ok(c.store.bodies[height]) else Err(NotFound)
  }

  /** `hashOf`: the hash of the header stored at that height. */
  function HashOf(hs: Hashers, c: Chain, height: int): (r: Result<Hash, ChainError>)
    ensures r.Ok? <==> HeaderOf(c, height).Ok?
    ensures r.Ok? ==> r.value == hs.header(HeaderOf(c, height).value)
    ensures r.Err? ==> r.error == NotFound
  {
    var header :- HeaderOf(c, height);
    Ok(hs.header(header))
  }

  /** `blockOf`: ready check, then header and body of the height. */
  function BlockOf(c: Chain, height: int): (r: Result<Block, ChainError>)
    ensures !c.isReady ==> r == Err(NotReady)
    ensures c.isReady ==> (r.Ok? <==> height in c.store.headers && height in c.store.bodies)
    ensures r.Ok? ==> r.value == Block(c.store.headers[height], c.store.bodies[height])
    ensures c.isReady && r.Err? ==> r.error == NotFound
  {
    if !c.isReady then Err(NotReady)
    else
      var header :- HeaderOf(c, height);
      var body :- BodyOf(c, height);
      Ok(Block(header, body))
  }

  /** The height whose header announces the validator set of `height`. */
  function AnnouncingHeight(height: int): int {
    if height == 1 then 1 else height - 1
  }

  /** `validatorSetOf`: the set stored under `nextValidatorSetRoot` of the
      previous header (of the genesis header itself for height 1). */
  function ValidatorSetOf(c: Chain, height: int): (r: Result<ValidatorSet, ChainError>)
    ensures !c.isReady ==> r == Err(NotReady)
    ensures r.Ok? ==> var prev := AnnouncingHeight(height);
      && prev in c.store.headers
      && c.store.headers[prev].nextValidatorSetRoot in c.store.validatorSets
      && r.value == c.store.validatorSets[c.store.headers[prev].nextValidatorSetRoot]
    ensures c.isReady && r.Err? ==> r.error == NotFound
    ensures (c.isReady && AnnouncingHeight(height) in c.store.headers &&
             c.store.headers[AnnouncingHeight(height)].nextValidatorSetRoot in c.store.validatorSets) ==> r.Ok?
  {
    if !c.isReady then Err(NotReady)
    else
      var header :- HeaderOf(c, if height == 1 then 1 else height - 1);
      if header.nextValidatorSetRoot in c.store.validatorSets
      then Ok(c.store.validatorSets[header.nextValidatorSetRoot])
      else Err(NotFound)
  }

  /** `consensusOf`: the stored last consensus for the tip, else the
      `lastBlockConsensus` carried by the next block's body. */
  function ConsensusOf(c: Chain, height: int): (r: Result<Consensus, ChainError>)
    ensures !c.isReady ==> r == Err(NotReady)
    ensures c.isReady && height == c.store.height ==>
      r == (if c.store.lastConsensus.Some? then Ok(c.store.lastConsensus.value) else Err(NotFound))
    ensures c.isReady && height != c.store.height ==>
      r == (if height + 1 in c.store.bodies then Ok(c.store.bodies[height + 1].lastBlockConsensus) else Err(NotFound))
  {
    if !c.isReady then Err(NotReady)
    else if c.store.height == height then
      match c.store.lastConsensus
      case Some(consensus) => Ok(consensus)
      case None => Err(NotFound)
    else
      var body :- BodyOf(c, height + 1);
      Ok(body.lastBlockConsensus)
  }

  /** The `height` getter. */
  function Height(c: Chain): (r: Result<nat, ChainError>)
    ensures r.Ok? <==> c.isReady
    ensures r.Ok? ==> r.value == c.store.height
    ensures r.Err? ==> r.error == NotReady
  {
    if !c.isReady then Err(NotReady) else Ok(c.store.height)
  }

  /** Every ready-guarded accessor fails before `ready()`. */
  lemma NotReadyGuards(c: Chain, height: int)
    requires !c.isReady
    ensures Height(c) == Err(NotReady)
    ensures BlockOf(c, height) == Err(NotReady)
    ensures ValidatorSetOf(c, height) == Err(NotReady)
    ensures ConsensusOf(c, height) == Err(NotReady)
  {
  }

  // ---------------------------------------------------------------------
  // Appending a block
  // ---------------------------------------------------------------------

  /** The writes that append a block: header and body at its height, the
      height pointer, the tip's consensus and the next validator set. */
  function Append(hs: Hashers, c: Chain, block: Block, consensus: Consensus, next: ValidatorSet): (c': Chain)
    ensures c'.isReady == c.isReady && c'.genesis == c.genesis
    ensures c'.store.height == block.header.height
    ensures HeaderOf(c', block.header.height) == Ok(block.header)
    ensures BodyOf(c', block.header.height) == Ok(block.body)
    ensures forall h :: h != block.header.height ==> HeaderOf(c', h) == HeaderOf(c, h) && BodyOf(c', h) == BodyOf(c, h)
  {
    var h := block.header.height;
    var st := c.store;
    c.(store := st.(
      headers := st.headers[h := block.header],
      bodies := st.bodies[h := block.body],
      height := h,
      lastConsensus := Some(consensus),
      validatorSets := st.validatorSets[hs.validatorSet(next) := next]))
  }

  /** After appending a block whose header announces a validator set, that
      set is the one in force for the following height, and the set in
      force at the appended height is still read from the header before. */
  lemma ValidatorSetOneBlockDelay(hs: Hashers, c: Chain, block: Block, consensus: Consensus, next: ValidatorSet)
    requires c.isReady
    requires block.header.height >= 2
    requires block.header.nextValidatorSetRoot == hs.validatorSet(next)
    ensures var c' := Append(hs, c, block, consensus, next);
      && ValidatorSetOf(c', block.header.height + 1) == Ok(next)
      && (block.header.height - 1 !in c.store.headers ==> ValidatorSetOf(c', block.header.height) == Err(NotFound))
      && (block.header.height - 1 in c.store.headers ==>
            var root := c.store.headers[block.header.height - 1].nextValidatorSetRoot;
            ValidatorSetOf(c', block.header.height) ==
              (if root in c'.store.validatorSets then Ok(c'.store.validatorSets[root]) else Err(NotFound)))
      && (block.header.height - 1 in c.store.headers &&
          c.store.headers[block.header.height - 1].nextValidatorSetRoot in c.store.validatorSets &&
          c.store.headers[block.header.height - 1].nextValidatorSetRoot != hs.validatorSet(next)
          ==> ValidatorSetOf(c', block.header.height) == ValidatorSetOf(c, block.header.height))
  {
  }

  /** After appending block h on top of block h-1, the consensus of h is the
      stored tip consensus and the consensus of h-1 is the one block h
      carries in its body. */
  lemma ConsensusOfTipAndBelow(hs: Hashers, c: Chain, block: Block, consensus: Consensus, next: ValidatorSet)
    requires c.isReady
    requires block.header.height >= 1
    ensures var c' := Append(hs, c, block, consensus, next);
      && ConsensusOf(c', block.header.height) == Ok(consensus)
      && ConsensusOf(c', block.header.height - 1) == Ok(block.body.lastBlockConsensus)
  {
  }

  /** After appending, `blockOf` and `hashOf` read back the block. */
  lemma AppendThenRead(hs: Hashers, c: Chain, block: Block, consensus: Consensus, next: ValidatorSet)
    requires c.isReady
    ensures var c' := Append(hs, c, block, consensus, next);
      && BlockOf(c', block.header.height) == Ok(block)
      && HashOf(hs, c', block.header.height) == Ok(hs.header(block.header))
      && Height(c') == Ok(block.header.height)
  {
  }

  /** A ready ledger's genesis slot stays valid across appends above it, so
      a ledger rebuilt over the same store becomes ready again with the same
      height. */
  lemma RestoreAfterAppend(hs: Hashers, c: Chain, block: Block, consensus: Consensus, next: ValidatorSet)
    requires c.isReady && 1 in c.store.headers
    requires hs.header(c.store.headers[1]) == hs.header(c.genesis.header)
    requires block.header.height >= 1
    requires block.header.height == 1 ==> hs.header(block.header) == hs.header(c.genesis.header)
    ensures var c' := Append(hs, c, block, consensus, next);
      var r := Ready(hs, NewChain(c'.store, c.genesis, c.initialValidatorSet));
      r.result.Ok? && Height(r.chain) == Ok(block.header.height)
  {
    var c' := Append(hs, c, block, consensus, next);
    RestoreFromStore(hs, c'.store, c.genesis, c.initialValidatorSet);
  }
}

=== FILE: bytes.dfy ===
/** Byte strings and the text-to-bytes conversions the node relies on:
    hexadecimal as Node's `Buffer` writes and reads it, decimal rendering of
    a number inside a template string, and UTF-8 of ASCII text. */
module Bytes {

  type Byte = b: int | 0 <= b < 256

  /** `n` zero bytes, as `Buffer.alloc(n)` produces. */
  function Zeros(n: nat): (r: seq<Byte>)
    ensures |r| == n
    ensures forall i :: 0 <= i < n ==> r[i] == 0
  {
    seq(n, _ => 0)
  }

  // ---------------------------------------------------------------------
  // Hexadecimal (Buffer#toString('hex') and Buffer.from(str, 'hex'))
  // ---------------------------------------------------------------------

  /** The lower-case hexadecimal digit for a nibble. */
  function HexChar(n: nat): (c: char)
    requires n < 16
    ensures IsLowerHex(c)
  {
    if n < 10 then ('0' as int + n) as char else ('a' as int + n - 10) as char
  }

  predicate IsLowerHex(c: char) {
    '0' <= c <= '9' || 'a' <= c <= 'f'
  }

  /** The value of one hexadecimal digit of either case, or -1 when `c` is
      not a hexadecimal digit. */
  function HexValue(c: char): (v: int)
    ensures -1 <= v < 16
    ensures IsLowerHex(c) ==> v >= 0 && HexChar(v) == c
  {
    if '0' <= c <= '9' then c as int - '0' as int
    else if 'a' <= c <= 'f' then c as int - 'a' as int + 10
    else if 'A' <= c <= 'F' then c as int - 'A' as int + 10
    else -1
  }

  /** Lower-case hexadecimal, two digits per byte, high nibble first. */
  function ToHex(bytes: seq<Byte>): (s: string)
    ensures |s| == 2 * |bytes|
    ensures forall i :: 0 <= i < |s| ==> IsLowerHex(s[i])
  {
    if |bytes| == 0 then ""
    else [HexChar(bytes[0] / 16), HexChar(bytes[0] % 16)] + ToHex(bytes[1..])
  }

  /** Node's hex decoding: reads the string two characters at a time, stops
      at the first pair that is not two hexadecimal digits and drops an odd
      trailing character. */
  function FromHex(s: string): (bytes: seq<Byte>)
    ensures |bytes| <= |s| / 2
    decreases |s|
  {
    if |s| < 2 then []
    else
      var hi := HexValue(s[0]);
      var lo := HexValue(s[1]);
      if hi < 0 || lo < 0 then [] else [hi * 16 + lo] + FromHex(s[2..])
  }

  lemma {:induction false} FromHexToHex(bytes: seq<Byte>)
    ensures FromHex(ToHex(bytes)) == bytes
    decreases |bytes|
  {
    if |bytes| > 0 {
      var s := ToHex(bytes);
      var b := bytes[0];
      assert s == [HexChar(b / 16), HexChar(b % 16)] + ToHex(bytes[1..]);
      assert HexValue(s[0]) == b / 16;
      assert HexValue(s[1]) == b % 16;
      assert s[2..] == ToHex(bytes[1..]);
      FromHexToHex(bytes[1..]);
      assert bytes == [b] + bytes[1..];
    }
  }

  /** Decoding never reads past the first malformed pair: whatever follows a
      non-hexadecimal character is ignored. */
  lemma {:induction false} FromHexStopsAtBadDigit(s: string, t: string, bytes: seq<Byte>)
    requires |s| % 2 == 0
    requires FromHex(s) == bytes
    requires |bytes| == |s| / 2
    requires |t| >= 1 && HexValue(t[0]) < 0
    ensures FromHex(s + t) == bytes
    decreases |s|
  {
    if |s| == 0 {
      assert s + t == t;
    } else {
      var hi := HexValue(s[0]);
      var lo := HexValue(s[1]);
      assert hi >= 0 && lo >= 0;
      assert (s + t)[2..] == s[2..] + t;
      FromHexStopsAtBadDigit(s[2..], t, bytes[1..]);
    }
  }

  // ---------------------------------------------------------------------
  // Decimal rendering and ASCII text
  // ---------------------------------------------------------------------

  function DigitChar(d: nat): (c: char)
    requires d < 10
    ensures '0' <= c <= '9'
  {
    ('0' as int + d) as char
  }

  /** The decimal rendering of `n` with no sign and no leading zero, as a
      template literal `${n}` renders a non-negative integer. */
  function Decimal(n: nat): (s: string)
    ensures |s| >= 1
    ensures forall i :: 0 <= i < |s| ==> '0' <= s[i] <= '9'
    ensures n >= 10 ==> s[0] != '0'
  {
    if n < 10 then [DigitChar(n)] else Decimal(n / 10) + [DigitChar(n % 10)]
  }

  function DigitValue(c: char): nat
    requires '0' <= c <= '9'
  {
    c as int - '0' as int
  }

  /** Reads a string of decimal digits back as a number. */
  function ParseDecimal(s: string): (n: nat)
    requires forall i :: 0 <= i < |s| ==> '0' <= s[i] <= '9'
  {
    if |s| == 0 then 0 else ParseDecimal(s[..|s| - 1]) * 10 + DigitValue(s[|s| - 1])
  }

  /** Rendering a number in decimal loses nothing, so distinct numbers render
      as distinct strings. */
  lemma {:induction false} DecimalRoundTrip(n: nat)
    ensures ParseDecimal(Decimal(n)) == n
  {
    if n >= 10 {
      var s := Decimal(n);
      assert s[..|s| - 1] == Decimal(n / 10);
      DecimalRoundTrip(n / 10);
    }
  }

  lemma DecimalInjective(m: nat, n: nat)
    requires Decimal(m) == Decimal(n)
    ensures m == n
  {
    DecimalRoundTrip(m);
    DecimalRoundTrip(n);
  }

  predicate IsAscii(s: string) {
    forall i :: 0 <= i < |s| ==> s[i] as int < 128
  }

  /** The UTF-8 encoding of an ASCII string: one byte per character. */
  function Ascii(s: string): (bytes: seq<Byte>)
    requires IsAscii(s)
    ensures |bytes| == |s|
    ensures forall i :: 0 <= i < |s| ==> bytes[i] == s[i] as int
  {
    seq(|s|, i requires 0 <= i < |s| => s[i] as int)
  }
}

=== FILE: controller.dfy ===
/** Transaction admission and execution of the easy framework's `Controller`:
    a per-account nonce state machine in front of an HTTP application.

    The HTTP round trip of a transaction (`SignedRequest.unpack` and
    `Response.pack`) is an oracle: given the application's key space it
    returns the new key space and the response, or nothing when the request
    throws. Decoding a core transaction into a signed transaction is a
    parameter too. The write lock around each transaction is one atomic
    step. */
module Controller {
  import opened Wrappers
  import opened Bytes
  import opened Cryptography
  import Blockchain

  type Address = seq<Byte>

  /** A core transaction: opaque bytes and their hash. */
  datatype CoreTransaction = CoreTransaction(data: seq<Byte>, hash: Hash)

  /** A decoded transaction: who signed it, with which nonce, asking what. */
  datatype SignedTransaction = SignedTransaction(signer: Address, nonce: int, request: seq<Byte>)

  /** `deserialize(coreTx.data, SignedTransaction.deserialize)`; `None`
      when it throws. */
  type Decoder = seq<Byte> -> Option<SignedTransaction>

  datatype Response = Response(status: int, message: string, body: seq<Byte>)

  /** The memcached interface's operation mode. */
  datatype Mode = ReadOnly | ReadWrite

  type KeySpace = map<seq<Byte>, seq<Byte>>

  /** Everything under the state's root: account nonces and the
      application's own key space. `rollback(root)` restores all of it. */
  datatype Store = Store(nonces: map<Address, nat>, app: KeySpace)

  /** The state: the rolled-back store, the responses recorded by
      transaction hash (written through `state.result`, outside the root that
      `rollback` restores), the app height and the memcached mode. */
  datatype State = State(store: Store, results: map<Hash, Response>, height: nat, mode: Mode)

  /** The application's handling of one request. */
  type Oracle = (KeySpace, SignedTransaction, Blockchain.Header) -> Option<(KeySpace, Response)>

  datatype ControllerError = DecodeFailed

  /** `getAccount(address).nonce`: an account never written has nonce 0. */
  function Nonce(store: Store, address: Address): nat {
    if address in store.nonces then store.nonces[address] else 0
  }

  // ---------------------------------------------------------------------
  // Admission
  // ---------------------------------------------------------------------

  /** `validateTransaction`: false when the data does not decode or the
      nonce is not above the signer's stored nonce; never an error. */
  function ValidateTransaction(decode: Decoder, st: State, coreTx: CoreTransaction): (ok: bool)
    ensures decode(coreTx.data).None? ==> !ok
    ensures ok <==> (decode(coreTx.data).Some? &&
                     decode(coreTx.data).value.nonce > Nonce(st.store, decode(coreTx.data).value.signer))
  {
    match decode(coreTx.data)
    case None => false
    case Some(tx) => !(tx.nonce <= Nonce(st.store, tx.signer))
  }

  /** A transaction the selection keeps: it decodes and carries exactly the
      signer's next nonce. */
  ghost predicate Eligible(decode: Decoder, st: State, coreTx: CoreTransaction) {
    decode(coreTx.data).Some? &&
    decode(coreTx.data).value.nonce == Nonce(st.store, decode(coreTx.data).value.signer) + 1
  }

  /** Reference for the selection: the eligible transactions, in input order. */
  ghost function EligibleIn(decode: Decoder, st: State, txs: seq<CoreTransaction>): seq<CoreTransaction> {
    if |txs| == 0 then []
    else
      var init := txs[..|txs| - 1];
      var last := txs[|txs| - 1];
      EligibleIn(decode, st, init) + (if Eligible(decode, st, last) then [last] else [])
  }

  lemma {:induction false} EligibleInMembers(decode: Decoder, st: State, txs: seq<CoreTransaction>)
    ensures forall t :: t in EligibleIn(decode, st, txs) <==> t in txs && Eligible(decode, st, t)
    ensures |EligibleIn(decode, st, txs)| <= |txs|
  {
    if |txs| > 0 {
      EligibleInMembers(decode, st, txs[..|txs| - 1]);
      assert txs == txs[..|txs| - 1] + [txs[|txs| - 1]];
    }
  }

  predicate AllDecode(decode: Decoder, txs: seq<CoreTransaction>) {
    forall i :: 0 <= i < |txs| ==> decode(txs[i].data).Some?
  }

  /** `selectTransactions`: keeps, in order, the transactions whose nonce is
      the signer's stored nonce + 1; `None` when nothing was kept. Decoding
      is not guarded here, so undecodable data makes the call fail. */
  method SelectTransactions(decode: Decoder, st: State, txs: seq<CoreTransaction>)
    returns (r: Result<Option<seq<CoreTransaction>>, ControllerError>)
    ensures r.Ok? <==> AllDecode(decode, txs)
    ensures r.Ok? ==> (r.value.None? <==> EligibleIn(decode, st, txs) == [])
    ensures r.Ok? && r.value.Some? ==> r.value.value == EligibleIn(decode, st, txs)
  {
    var selected: seq<CoreTransaction> := [];
    var i := 0;
    while i < |txs|
      invariant 0 <= i <= |txs|
      invariant AllDecode(decode, txs[..i])
      invariant selected == EligibleIn(decode, st, txs[..i])
    {
      var coreTx := txs[i];
      var decoded := decode(coreTx.data);
      if decoded.None? {
        return Err(DecodeFailed);
      }
      var tx := decoded.value;
      if tx.nonce == Nonce(st.store, tx.signer) + 1 {
        selected := selected + [coreTx];
      }
      assert txs[..i + 1][..i] == txs[..i];
      i := i + 1;
    }
    assert txs[..i] == txs;
    if |selected| > 0 {
      return Ok(Some(selected));
    }
    return Ok(None);
  }

  /** Whatever the selection keeps also passes validation. */
  lemma SelectedAreValid(decode: Decoder, st: State, txs: seq<CoreTransaction>, t: CoreTransaction)
    requires t in EligibleIn(decode, st, txs)
    ensures t in txs && ValidateTransaction(decode, st, t)
  {
    EligibleInMembers(decode, st, txs);
  }

  // ---------------------------------------------------------------------
  // Execution
  // ---------------------------------------------------------------------

  /** Why a transaction was rolled back, if it was. */
  datatype Outcome = Applied | NonContinuousNonce | RequestFailed | ErrorStatus

  predicate IsErrorStatus(status: int) {
    400 <= status < 600
  }

  /** The store after the nonce of `signer` is set to `nonce`. */
  function Bump(store: Store, signer: Address, nonce: nat): (b: Store)
    ensures Nonce(b, signer) == nonce && b.app == store.app
    ensures forall a :: a != signer ==> Nonce(b, a) == Nonce(store, a)
  {
    store.(nonces := store.nonces[signer := nonce])
  }

  /** One transaction under the write lock: check nonce continuity, bump the
      nonce, run the request in read/write mode, record the response, and
      on any failure roll the store back to its pre-transaction root. The
      recorded response is not under that root, so an error response stays
      recorded. The mode is read-only afterwards in every case. */
  function ExecuteOne(st: State, coreTx: CoreTransaction, tx: SignedTransaction,
                      header: Blockchain.Header, oracle: Oracle): (r: (State, Outcome))
    ensures r.0.mode == ReadOnly && r.0.height == st.height
    ensures r.1 != Applied ==> r.0.store == st.store
    ensures tx.nonce != Nonce(st.store, tx.signer) + 1 ==>
      r == (st.(mode := ReadOnly), NonContinuousNonce)
    ensures tx.nonce == Nonce(st.store, tx.signer) + 1 ==>
      var bumped := Bump(st.store, tx.signer, tx.nonce);
      var answer := oracle(bumped.app, tx, header);
      && (answer.None? ==> r == (st.(mode := ReadOnly), RequestFailed))
      && (answer.Some? ==> r.0.results == st.results[coreTx.hash := answer.value.1])
      && (answer.Some? && IsErrorStatus(answer.value.1.status) ==>
            r.1 == ErrorStatus && r.0.store == st.store)
      && (answer.Some? && !IsErrorStatus(answer.value.1.status) ==>
            r.1 == Applied && r.0.store == bumped.(app := answer.value.0))
    ensures r.1 == Applied ==>
      && tx.nonce == Nonce(st.store, tx.signer) + 1
      && Nonce(r.0.store, tx.signer) == tx.nonce
      && coreTx.hash in r.0.results && !IsErrorStatus(r.0.results[coreTx.hash].status)
      && (forall a :: a != tx.signer ==> Nonce(r.0.store, a) == Nonce(st.store, a))
  {
    var root := st.store;
    var next := Nonce(root, tx.signer) + 1;
    if tx.nonce != next then (st.(store := root, mode := ReadOnly), NonContinuousNonce)
    else
      var bumped := Bump(root, tx.signer, next);
      match oracle(bumped.app, tx, header)
      case None => (st.(store := root, mode := ReadOnly), RequestFailed)
      case Some(answer) =>
        var (app, res) := answer;
        var results := st.results[coreTx.hash := res];
        if IsErrorStatus(res.status) then (st.(store := root, results := results, mode := ReadOnly), ErrorStatus)
        else (st.(store := bumped.(app := app), results := results, mode := ReadOnly), Applied)
  }

  /** A 4xx/5xx answer rolls back the nonce and the key space but stays
      recorded under the transaction's hash. */
  lemma ErrorResponseRecorded(st: State, coreTx: CoreTransaction, tx: SignedTransaction,
                              header: Blockchain.Header, oracle: Oracle)
    requires ExecuteOne(st, coreTx, tx, header, oracle).1 == ErrorStatus
    ensures var r := ExecuteOne(st, coreTx, tx, header, oracle).0;
      && r.store == st.store
      && coreTx.hash in r.results && IsErrorStatus(r.results[coreTx.hash].status)
  {
  }

  /** The loop of `executeTransactions`, before the height increment. A
      failed transaction does not stop the loop; data that does not decode
      does, since decoding sits outside the per-transaction guard. */
  function ExecuteAll(decode: Decoder, st: State, txs: seq<CoreTransaction>,
                      header: Blockchain.Header, oracle: Oracle): (r: (State, bool))
    ensures r.1 <==> AllDecode(decode, txs)
    ensures r.0.height == st.height
    ensures r.1 && |txs| > 0 ==> r.0.mode == ReadOnly
    ensures forall a :: Nonce(r.0.store, a) >= Nonce(st.store, a)
    decreases |txs|
  {
    if |txs| == 0 then (st, true)
    else
      match decode(txs[0].data)
      case None => (st, false)
      case Some(tx) =>
        var (st1, _) := ExecuteOne(st, txs[0], tx, header, oracle);
        var (st2, ok) := ExecuteAll(decode, st1, txs[1..], header, oracle);
        assert ok <==> AllDecode(decode, txs) by {
          assert AllDecode(decode, txs) <==> AllDecode(decode, txs[1..]);
        }
        (st2, ok)
  }

  /** `executeTransactions`: runs every transaction, then raises the app
      height by exactly one. Returns the new app height. */
  function ExecuteTransactions(decode: Decoder, st: State, txs: seq<CoreTransaction>,
                               header: Blockchain.Header, oracle: Oracle): (r: (State, Result<nat, ControllerError>))
    ensures r.1.Ok? <==> AllDecode(decode, txs)
    ensures r.1.Ok? ==> r.0.height == st.height + 1 && r.1.value == r.0.height
    ensures r.1.Err? ==> r.0.height == st.height && r.1.error == DecodeFailed
    ensures r.1.Ok? && |txs| > 0 ==> r.0.mode == ReadOnly
    ensures forall a :: Nonce(r.0.store, a) >= Nonce(st.store, a)
  {
    var (st1, ok) := ExecuteAll(decode, st, txs, header, oracle);
    if ok then
      var st2 := st1.(height := st1.height + 1);
      (st2, Ok(st2.height))
    else (st1, Err(DecodeFailed))
  }

  /** Running two lists one after the other is running their concatenation:
      nothing a transaction does, failed or not, stops the ones after it. */
  lemma {:induction false} ExecuteAllAppend(decode: Decoder, st: State, txs1: seq<CoreTransaction>,
                                            txs2: seq<CoreTransaction>, header: Blockchain.Header, oracle: Oracle)
    requires AllDecode(decode, txs1)
    ensures ExecuteAll(decode, st, txs1 + txs2, header, oracle) ==
      ExecuteAll(decode, ExecuteAll(decode, st, txs1, header, oracle).0, txs2, header, oracle)
    decreases |txs1|
  {
    if |txs1| == 0 {
      assert txs1 + txs2 == txs2;
    } else {
      var tx := decode(txs1[0].data).value;
      var (st1, _) := ExecuteOne(st, txs1[0], tx, header, oracle);
      assert (txs1 + txs2)[0] == txs1[0];
      assert (txs1 + txs2)[1..] == txs1[1..] + txs2;
      ExecuteAllAppend(decode, st1, txs1[1..], txs2, header, oracle);
    }
  }

  /** A transaction included twice in a row takes effect at most once: the
      repeat either meets a nonce that already moved on, or fails exactly as
      the first attempt did, and is rolled back. The oracle is one function,
      so this takes the application to answer both runs alike. */
  lemma ReplayHasNoEffect(decode: Decoder, st: State, t: CoreTransaction,
                          header: Blockchain.Header, oracle: Oracle)
    requires decode(t.data).Some?
    ensures ExecuteAll(decode, st, [t, t], header, oracle).0 ==
            ExecuteAll(decode, st, [t], header, oracle).0
  {
    var tx := decode(t.data).value;
    var (st1, out1) := ExecuteOne(st, t, tx, header, oracle);
    var (st2, out2) := ExecuteOne(st1, t, tx, header, oracle);
    assert [t, t][1..] == [t];
    assert [t][1..] == [];
    if out1 == Applied {
      assert out2 == NonContinuousNonce;
    } else {
      assert st1.store == st.store;
      assert st2 == st1;
    }
  }

  /** A transaction run twice takes effect at most once, even when the
      application answers the two runs differently (a request that failed
      the first time may succeed the second): the signer's nonce rises by
      at most one and no other account's nonce moves. */
  lemma RepeatAppliesAtMostOnce(st: State, coreTx: CoreTransaction, tx: SignedTransaction,
                                header: Blockchain.Header, first: Oracle, second: Oracle)
    ensures var st1 := ExecuteOne(st, coreTx, tx, header, first).0;
      var st2 := ExecuteOne(st1, coreTx, tx, header, second).0;
      && Nonce(st2.store, tx.signer) <= Nonce(st.store, tx.signer) + 1
      && (forall a :: a != tx.signer ==> Nonce(st2.store, a) == Nonce(st.store, a))
  {
    var (st1, out1) := ExecuteOne(st, coreTx, tx, header, first);
    if out1 == Applied {
      assert ExecuteOne(st1, coreTx, tx, header, second).1 == NonContinuousNonce;
    } else {
      assert st1.store == st.store;
    }
  }

  /** The app height rises by one per call, also for an empty list. */
  lemma HeightOncePerBlock(decode: Decoder, st: State, header: Blockchain.Header, oracle: Oracle)
    ensures ExecuteTransactions(decode, st, [], header, oracle) == (st.(height := st.height + 1), Ok(st.height + 1))
  {
  }
}

=== FILE: merkle.dfy ===
/** The Merkle root over an ordered list of hashes or hashable objects.

    The tree is split asymmetrically: the left part always holds the
    largest power of two strictly below the item count. A lone item is
    returned as it is, never re-hashed and never paired with a copy of
    itself, which closes the duplicated-leaf forgery of CVE-2012-2459. */
module MerkleTree {
  import opened Cryptography

  /** An item of the list: a bare `Hash`, or a hashable object of which
      only its `hash` property is read. */
  datatype Item = Digest(h: Hash) | Hashable(hash: Hash)

  /** The hash a lone item contributes: the item itself when it is a Hash,
      its `hash` property otherwise. */
  function LeafHash(item: Item): Hash {
    match item
    case Digest(h) => h
    case Hashable(hash) => hash
  }

  // ---------------------------------------------------------------------
  // Split point
  // ---------------------------------------------------------------------

  ghost predicate IsPowerOfTwo(i: nat) {
    i == 1 || (i >= 2 && i % 2 == 0 && IsPowerOfTwo(i / 2))
  }

  /** The doubling loop of `splitPoint`, on unbounded integers: starting
      from a power of two `i`, doubles until it is no longer below `x`. */
  function DoubleUntil(i: nat, x: nat): (r: nat)
    requires i >= 1 && IsPowerOfTwo(i)
    ensures IsPowerOfTwo(r) && r >= x && r >= i
    ensures r == i || r < 2 * x
    decreases x - i
  {
    if i < x then DoubleUntil(2 * i, x) else i
  }

  /** `splitPoint(x)`: the largest power of two strictly below `x`, the
      size of the left part of a split. */
  function SplitPoint(x: nat): (s: nat)
    requires x >= 2
    ensures IsPowerOfTwo(s)
    ensures s < x <= 2 * s
  {
    DoubleUntil(1, x) / 2
  }

  /** The values the design names: 2 -> 1, 3 -> 2, 4 -> 2, 5 -> 4. */
  lemma SplitPointExamples()
    ensures SplitPoint(2) == 1 && SplitPoint(3) == 2 && SplitPoint(4) == 2 && SplitPoint(5) == 4
  {
    assert DoubleUntil(1, 2) == 2;
    assert DoubleUntil(1, 3) == 4;
    assert DoubleUntil(1, 4) == 4;
    assert DoubleUntil(1, 5) == 8;
  }

  /** Any power of two `p` with `p < x <= 2p` is the split point: the
      characterisation pins the value down. */
  lemma SplitPointUnique(x: nat, p: nat)
    requires x >= 2 && p >= 1 && IsPowerOfTwo(p) && p < x <= 2 * p
    ensures SplitPoint(x) == p
  {
    var s := SplitPoint(x);
    if s < p {
      PowerOfTwoGap(s, p);
    } else if p < s {
      PowerOfTwoGap(p, s);
    }
  }

  /** Two distinct powers of two are at least a factor two apart. */
  lemma {:induction false} PowerOfTwoGap(a: nat, b: nat)
    requires IsPowerOfTwo(a) && IsPowerOfTwo(b) && a < b
    ensures 2 * a <= b
    decreases b
  {
    if a >= 2 {
      PowerOfTwoGap(a / 2, b / 2);
    }
  }

  // ---------------------------------------------------------------------
  // Root
  // ---------------------------------------------------------------------

  /** `MerkleTree.root` with `keccak` for `Hash.fromData`. A lone item is
      its own leaf hash and is not hashed again. */
  function Root(keccak: Keccak, items: seq<Item>): (r: Hash)
    ensures |items| == 0 ==> r == keccak([])
    ensures |items| == 1 && items[0].Digest? ==> r == items[0].h
    ensures |items| == 1 && items[0].Hashable? ==> r == items[0].hash
    decreases |items|
  {
    if |items| == 0 then keccak([])
    else if |items| == 1 then LeafHash(items[0])
    else
      var split := SplitPoint(|items|);
      keccak(Root(keccak, items[..split]) + Root(keccak, items[split..]))
  }

  /** The three cases of the definition, each stated for every list. */
  lemma RootCases(keccak: Keccak, items: seq<Item>)
    ensures |items| == 0 ==> Root(keccak, items) == keccak([])
    ensures |items| == 1 ==> Root(keccak, items) == LeafHash(items[0])
    ensures |items| == 1 && items[0].Digest? ==> Root(keccak, items) == items[0].h
    ensures |items| >= 2 ==>
      exists s :: 1 <= s < |items| && IsPowerOfTwo(s) && |items| - s <= s &&
        Root(keccak, items) == keccak(Root(keccak, items[..s]) + Root(keccak, items[s..]))
  {
    if |items| >= 2 {
      var s := SplitPoint(|items|);
      assert 1 <= s < |items| && IsPowerOfTwo(s) && |items| - s <= s;
    }
  }

  // ---------------------------------------------------------------------
  // Reference: the hashed tree and its leaves
  // ---------------------------------------------------------------------

  /** The shape the root is computed over. */
  datatype Tree = Empty | Leaf(item: Item) | Node(left: Tree, right: Tree)

  /** The tree `Root` implicitly walks. */
  function Build(items: seq<Item>): (t: Tree)
    decreases |items|
  {
    if |items| == 0 then Empty
    else if |items| == 1 then Leaf(items[0])
    else
      var split := SplitPoint(|items|);
      Node(Build(items[..split]), Build(items[split..]))
  }

  /** The hash of a tree, bottom up. */
  function Eval(keccak: Keccak, t: Tree): Hash {
    match t
    case Empty => keccak([])
    case Leaf(item) => LeafHash(item)
    case Node(l, r) => keccak(Eval(keccak, l) + Eval(keccak, r))
  }

  /** The leaves of a tree, left to right. */
  function Leaves(t: Tree): seq<Item> {
    match t
    case Empty => []
    case Leaf(item) => [item]
    case Node(l, r) => Leaves(l) + Leaves(r)
  }

  predicate NoEmptySubtree(t: Tree) {
    match t
    case Empty => true
    case Leaf(_) => true
    case Node(l, r) => !l.Empty? && !r.Empty? && NoEmptySubtree(l) && NoEmptySubtree(r)
  }

  /** The tree behind the root holds every item exactly once, in order:
      nothing is duplicated to pad a level and no subtree is empty. */
  lemma {:induction false} BuildLeaves(items: seq<Item>)
    ensures Leaves(Build(items)) == items
    ensures NoEmptySubtree(Build(items))
    ensures |items| >= 1 ==> !Build(items).Empty?
    decreases |items|
  {
    if |items| >= 2 {
      var split := SplitPoint(|items|);
      BuildLeaves(items[..split]);
      BuildLeaves(items[split..]);
      assert items[..split] + items[split..] == items;
    }
  }

  /** The root is the bottom-up hash of that tree. */
  lemma {:induction false} RootIsTreeHash(keccak: Keccak, items: seq<Item>)
    ensures Root(keccak, items) == Eval(keccak, Build(items))
    decreases |items|
  {
    if |items| >= 2 {
      var split := SplitPoint(|items|);
      RootIsTreeHash(keccak, items[..split]);
      RootIsTreeHash(keccak, items[split..]);
    }
  }

  /** A list whose length is a power of two is split exactly in half, so
      its tree is perfectly balanced. */
  lemma PowerOfTwoSplitsInHalf(n: nat)
    requires n >= 2 && IsPowerOfTwo(n)
    ensures SplitPoint(n) == n / 2
  {
    SplitPointUnique(n, n / 2);
  }

  /** A trailing odd item is not paired with a copy of itself: for three
      items the root hashes the third item's hash against the pair root,
      where a duplicating tree would hash it against itself. */
  lemma ThreeItems(keccak: Keccak, a: Item, b: Item, c: Item)
    ensures Root(keccak, [a, b, c]) ==
      keccak(keccak(LeafHash(a) + LeafHash(b)) + LeafHash(c))
  {
    SplitPointExamples();
    assert [a, b, c][..2] == [a, b];
    assert [a, b, c][2..] == [c];
    assert [a, b][..1] == [a];
    assert [a, b][1..] == [b];
    assert Root(keccak, [a, b]) == keccak(LeafHash(a) + LeafHash(b));
    assert Root(keccak, [c]) == LeafHash(c);
  }

  // ---------------------------------------------------------------------
  // `splitPoint` as written: JavaScript shifts act on 32-bit integers
  // ---------------------------------------------------------------------

  const TwoTo31: int := 0x8000_0000
  const TwoTo32: int := 0x1_0000_0000

  /** ECMAScript ToInt32: wrap into the signed 32-bit range. */
  function ToInt32(v: int): (r: int)
    ensures -TwoTo31 <= r < TwoTo31
    ensures 0 <= v < TwoTo31 ==> r == v
  {
    var m := v % TwoTo32;
    if m >= TwoTo31 then m - TwoTo32 else m
  }

  /** The value of `i` in `let i = 1; while (i < x) { i <<= 1 }` after `k`
      turns, where `i <<= 1` is ToInt32(2 * i). */
  function LoopAsWritten(x: int, k: nat): int {
    if k == 0 then 1
    else
      var i := LoopAsWritten(x, k - 1);
      if i < x then ToInt32(2 * i) else i
  }

  function Pow2(k: nat): (p: nat)
    ensures p >= 1
  {
    if k == 0 then 1 else 2 * Pow2(k - 1)
  }

  lemma {:induction false} Pow2Monotone(j: nat, k: nat)
    requires j <= k
    ensures Pow2(j) <= Pow2(k)
    decreases k
  {
    if j < k {
      Pow2Monotone(j, k - 1);
    }
  }

  lemma Pow2Bound(k: nat)
    requires k <= 30
    ensures Pow2(k) <= 0x4000_0000
  {
    Pow2Monotone(k, 30);
    Pow2Value30();
  }

  /** With x = 2^30 + 1 the doubling reaches 2^30, wraps to -2^31 and then
      to 0, and stays there: the guard `i < x` holds after every turn, so
      `splitPoint` never returns for lists longer than 2^30 items. */
  lemma {:induction false} SplitPointLoopValue(k: nat)
    ensures LoopAsWritten(0x4000_0001, k) ==
      if k <= 30 then Pow2(k) else if k == 31 then -TwoTo31 else 0
  {
    if k == 0 {
    } else if k <= 30 {
      SplitPointLoopValue(k - 1);
      var i := Pow2(k - 1);
      assert i <= 0x2000_0000 by {
        Pow2Monotone(k - 1, 29);
        Pow2Value30();
      }
      assert ToInt32(2 * i) == 2 * i;
    } else if k == 31 {
      SplitPointLoopValue(30);
      Pow2Value30();
      assert ToInt32(0x8000_0000) == -TwoTo31;
    } else if k == 32 {
      SplitPointLoopValue(31);
      assert ToInt32(-0x1_0000_0000) == 0;
    } else {
      SplitPointLoopValue(k - 1);
      assert ToInt32(0) == 0;
    }
  }

  lemma Pow2Value30()
    ensures Pow2(30) == 0x4000_0000
  {
    assert Pow2(10) == 1024;
    assert Pow2(20) == 1024 * 1024 by {
      Pow2Add(10, 10);
    }
    Pow2Add(20, 10);
  }

  lemma {:induction false} Pow2Add(a: nat, b: nat)
    ensures Pow2(a + b) == Pow2(a) * Pow2(b)
    decreases b
  {
    if b > 0 {
      Pow2Add(a, b - 1);
    }
  }

  lemma SplitPointLoopNeverExits(k: nat)
    ensures LoopAsWritten(0x4000_0001, k) < 0x4000_0001
  {
    SplitPointLoopValue(k);
    if k <= 30 {
      Pow2Bound(k);
    }
  }

  /** On unbounded integers the same input splits as intended. */
  lemma SplitPointAtLimit()
    ensures SplitPoint(0x4000_0001) == 0x4000_0000
  {
    var p := 0x4000_0000;
    assert IsPowerOfTwo(p) by {
      Pow2Value30();
      Pow2IsPowerOfTwo(30);
    }
    SplitPointUnique(0x4000_0001, p);
  }

  lemma {:induction false} Pow2IsPowerOfTwo(k: nat)
    ensures IsPowerOfTwo(Pow2(k))
  {
    if k > 0 {
      Pow2IsPowerOfTwo(k - 1);
      assert Pow2(k) / 2 == Pow2(k - 1);
    }
  }
}

=== FILE: optional.dfy ===
/** `Optional<T>`: a value that may be absent, with a `match` destructor
    and a byte encoding that starts with a one-byte label, 0 for none and
    1 for some, followed in the second case by the value's own encoding. */
module Optional {
  import W = Wrappers
  import opened Bytes

  datatype Optional<T> = Some(value: T) | None

  /** `match(some, none)`: `some` applied to the value, or `none()`. */
  function Match<T, R>(o: Optional<T>, some: T -> R, none: () -> R): (r: R)
    ensures o.Some? ==> r == some(o.value)
    ensures o.None? ==> r == none()
  {
    match o
    case Some(v) => some(v)
    case None => none()
  }

  /** Matching with the two constructors rebuilds the optional. */
  lemma MatchIdentity<T>(o: Optional<T>)
    ensures Match(o, (v: T) => Some(v), () => None) == o
  {
  }

  /** `hasValue`. */
  predicate HasValue<T>(o: Optional<T>) {
    o.Some?
  }

  const NoneLabel: Byte := 0
  const SomeLabel: Byte := 1

  /** `serialize(serializer)`: the label byte, then the value's bytes. */
  function Serialize<T>(o: Optional<T>, serializer: T -> seq<Byte>): (bytes: seq<Byte>)
    ensures |bytes| >= 1
    ensures bytes[0] == (if HasValue(o) then SomeLabel else NoneLabel)
    ensures o.Some? ==> bytes[1..] == serializer(o.value)
    ensures o.None? ==> |bytes| == 1
  {
    match o
    case Some(v) => [SomeLabel] + serializer(v)
    case None => [NoneLabel]
  }

  datatype DecodeError = EndOfBuffer | InvalidLabel

  /** A value decoder: the value and how many bytes it used. */
  type Decoder<T> = seq<Byte> -> W.Result<(T, nat), DecodeError>

  /** `Optional.deserialize(deserializer)`: reads the label, then the value
      when the label says some; any other label is an error. Returns the
      optional and the number of bytes used. */
  function Deserialize<T>(decode: Decoder<T>, buffer: seq<Byte>): (r: W.Result<(Optional<T>, nat), DecodeError>)
    ensures |buffer| == 0 ==> r == W.Err(EndOfBuffer)
    ensures |buffer| > 0 && buffer[0] > SomeLabel ==> r == W.Err(InvalidLabel)
    ensures |buffer| > 0 && buffer[0] == NoneLabel ==> r == W.Ok((None, 1))
    ensures |buffer| > 0 && buffer[0] == SomeLabel && decode(buffer[1..]).Ok? ==>
      r == W.Ok((Some(decode(buffer[1..]).value.0), decode(buffer[1..]).value.1 + 1))
    ensures |buffer| > 0 && buffer[0] == SomeLabel && decode(buffer[1..]).Err? ==>
      r == W.Err(decode(buffer[1..]).error)
    ensures r.Ok? && r.value.0.Some? ==> |buffer| > 0 && buffer[0] == SomeLabel
    ensures r.Ok? ==> 1 <= r.value.1
  {
    if |buffer| == 0 then W.Err(EndOfBuffer)
    else if buffer[0] == NoneLabel then W.Ok((None, 1))
    else if buffer[0] == SomeLabel then
      match decode(buffer[1..])
      case Ok((v, length)) => W.Ok((Some(v), length + 1))
      case Err(e) => W.Err(e)
    else W.Err(InvalidLabel)
  }

  /** The value codec reads back what it writes, whatever follows. */
  ghost predicate RoundTrips<T(!new)>(serializer: T -> seq<Byte>, decode: Decoder<T>) {
    forall v, rest :: decode(serializer(v) + rest) == W.Ok((v, |serializer(v)|))
  }

  /** An optional reads back as itself, using exactly its own bytes. */
  lemma SerializeRoundTrip<T(!new)>(o: Optional<T>, serializer: T -> seq<Byte>, decode: Decoder<T>, rest: seq<Byte>)
    requires RoundTrips(serializer, decode)
    ensures Deserialize(decode, Serialize(o, serializer) + rest) == W.Ok((o, |Serialize(o, serializer)|))
  {
    var bytes := Serialize(o, serializer) + rest;
    if o.Some? {
      assert bytes[1..] == serializer(o.value) + rest;
    }
  }

  /** A label other than 0 and 1 is refused whatever the value codec. */
  lemma BadLabelRejected<T>(decode: Decoder<T>, buffer: seq<Byte>)
    requires |buffer| > 0 && buffer[0] >= 2
    ensures Deserialize(decode, buffer) == W.Err(InvalidLabel)
  {
  }

  // ---------------------------------------------------------------------
  // One-byte unsigned integers, the value codec of the suite
  // ---------------------------------------------------------------------

  function UInt8Serialize(n: Byte): (bytes: seq<Byte>)
    ensures bytes == [n]
  {
    [n]
  }

  function UInt8Deserialize(buffer: seq<Byte>): (r: W.Result<(Byte, nat), DecodeError>)
    ensures |buffer| == 0 <==> r.Err?
    ensures r.Ok? ==> r.value == (buffer[0], 1)
  {
    if |buffer| == 0 then W.Err(EndOfBuffer) else W.Ok((buffer[0], 1))
  }

  lemma UInt8RoundTrips()
    ensures RoundTrips(UInt8Serialize, UInt8Deserialize)
  {
    forall v: Byte, rest: seq<Byte>
      ensures UInt8Deserialize(UInt8Serialize(v) + rest) == W.Ok((v, |UInt8Serialize(v)|))
    {
      assert (UInt8Serialize(v) + rest)[0] == v;
    }
  }

  /** The suite's cases: some(42) encodes as [1, 42] and reads back as 42;
      none encodes as [0] and matches to the default 0; overwriting the
      label of [1, 42] with 2 makes it unreadable. */
  lemma SuiteExamples()
    ensures Match(Some(42), (v: int) => v, () => 0) == 42
    ensures Match(None, (v: int) => v, () => 0) == 0
    ensures HasValue(Some(42)) && !HasValue(Optional<int>.None)
    ensures Serialize(Some(42 as Byte), UInt8Serialize) == [1, 42]
    ensures Serialize(None, UInt8Serialize) == [0]
    ensures Deserialize(UInt8Deserialize, [1, 42]) == W.Ok((Some(42 as Byte), 2))
    ensures Deserialize(UInt8Deserialize, [0]) == W.Ok((None, 1))
    ensures Deserialize(UInt8Deserialize, [2, 42]).Err?
  {
    UInt8RoundTrips();
    SerializeRoundTrip(Some(42 as Byte), UInt8Serialize, UInt8Deserialize, []);
    assert [1 as Byte, 42][1..] == [42];
  }
}

=== FILE: remote_node.dfy ===
/** The remote node set: the peers a node knows, each with the height it
    last reported and whether it is busy serving an exclusive request, and
    the selection rules built on it (best node, sync provider, gossip
    receivers).

    The set is an insertion-ordered map keyed by peer id. The random
    choices of the source become explicit seeds: a statement about every
    seed is a statement about every random outcome. The fan-out size
    `floor(n ^ exponent)` is computed in floating point by the source and is
    an input here. */
module RemoteNode {
  import opened Wrappers

  datatype RemoteNode = RemoteNode(peerId: string, height: nat, idle: bool)

  /** `new RemoteNode(peerId, protocol, height)`: a new node is idle. */
  function NewNode(peerId: string, height: nat): (n: RemoteNode)
    ensures n.idle && n.peerId == peerId && n.height == height
  {
    RemoteNode(peerId, height, true)
  }

  datatype NodeSet = NodeSet(nodes: seq<RemoteNode>)

  /** No two members share a peer id. */
  ghost predicate Valid(s: NodeSet) {
    forall i, j :: 0 <= i < j < |s.nodes| ==> s.nodes[i].peerId != s.nodes[j].peerId
  }

  const EmptySet := NodeSet([])

  /** The peer ids present in a list of members. */
  ghost function PeerIds(nodes: seq<RemoteNode>): set<string> {
    if |nodes| == 0 then {} else {nodes[0].peerId} + PeerIds(nodes[1..])
  }

  lemma {:induction false} PeerIdsMembers(nodes: seq<RemoteNode>, p: string)
    ensures p in PeerIds(nodes) <==> exists k :: 0 <= k < |nodes| && nodes[k].peerId == p
  {
    if |nodes| > 0 {
      PeerIdsMembers(nodes[1..], p);
      if p in PeerIds(nodes[1..]) {
        var k :| 0 <= k < |nodes[1..]| && nodes[1..][k].peerId == p;
        assert nodes[k + 1].peerId == p;
      }
      if exists k :: 0 <= k < |nodes| && nodes[k].peerId == p {
        var k :| 0 <= k < |nodes| && nodes[k].peerId == p;
        if k > 0 {
          assert nodes[1..][k - 1].peerId == p;
        }
      }
    }
  }

  /** `size`: the number of distinct peers known. */
  function Size(s: NodeSet): (n: nat)
    ensures Valid(s) ==> n == |PeerIds(s.nodes)|
    ensures n == 0 <==> s == EmptySet
  {
    SizeCountsPeers(s);
    |s.nodes|
  }

  lemma SizeCountsPeers(s: NodeSet)
    ensures Valid(s) ==> |PeerIds(s.nodes)| == |s.nodes|
  {
    if Valid(s) {
      DistinctPeerIdsCount(s.nodes);
    }
  }

  lemma {:induction false} DistinctPeerIdsCount(nodes: seq<RemoteNode>)
    requires Valid(NodeSet(nodes))
    ensures |PeerIds(nodes)| == |nodes|
  {
    if |nodes| > 0 {
      var rest := nodes[1..];
      assert Valid(NodeSet(rest)) by {
        forall i, j | 0 <= i < j < |rest|
          ensures rest[i].peerId != rest[j].peerId
        {
          assert rest[i] == nodes[i + 1] && rest[j] == nodes[j + 1];
        }
      }
      DistinctPeerIdsCount(rest);
      PeerIdsMembers(rest, nodes[0].peerId);
    }
  }

  predicate Contains(s: NodeSet, peerId: string) {
    exists i :: 0 <= i < |s.nodes| && s.nodes[i].peerId == peerId
  }

  /** The position of a peer id, if present. */
  function IndexOf(nodes: seq<RemoteNode>, peerId: string): (r: Option<nat>)
    ensures r.Some? ==> r.value < |nodes| && nodes[r.value].peerId == peerId
    ensures r.Some? ==> forall k :: 0 <= k < r.value ==> nodes[k].peerId != peerId
    ensures r.None? <==> forall k :: 0 <= k < |nodes| ==> nodes[k].peerId != peerId
  {
    if |nodes| == 0 then None
    else if nodes[0].peerId == peerId then Some(0)
    else
      match IndexOf(nodes[1..], peerId)
      case None => None
      case Some(i) => Some(i + 1)
  }

  /** `get(peerId)`: the member with that id, or undefined. */
  function Get(s: NodeSet, peerId: string): (r: Option<RemoteNode>)
    ensures r.Some? <==> Contains(s, peerId)
    ensures r.Some? ==> r.value in s.nodes && r.value.peerId == peerId
  {
    match IndexOf(s.nodes, peerId)
    case None => None
    case Some(i) => Some(s.nodes[i])
  }

  /** `add(node)`: a new peer id goes to the end; a known one is replaced
      where it stands, as a JavaScript `Map` does. */
  function Add(s: NodeSet, node: RemoteNode): (r: NodeSet)
    ensures Valid(s) ==> Valid(r)
    ensures Get(r, node.peerId) == Some(node)
    ensures !Contains(s, node.peerId) ==> r.nodes == s.nodes + [node]
    ensures Contains(s, node.peerId) ==> r.nodes == s.nodes[IndexOf(s.nodes, node.peerId).value := node]
    ensures forall p :: p != node.peerId ==> Get(r, p) == Get(s, p)
  {
    match IndexOf(s.nodes, node.peerId)
    case None =>
      var r := NodeSet(s.nodes + [node]);
      assert IndexOf(r.nodes, node.peerId) == Some(|s.nodes|) by {
        assert r.nodes[|s.nodes|] == node;
      }
      assert forall p :: p != node.peerId ==> Get(r, p) == Get(s, p) by {
        forall p | p != node.peerId
          ensures Get(r, p) == Get(s, p)
        {
          IndexOfPrefix(s.nodes, [node], p);
        }
      }
      r
    case Some(i) =>
      var r := NodeSet(s.nodes[i := node]);
      assert forall p :: p != node.peerId ==> Get(r, p) == Get(s, p) by {
        forall p | p != node.peerId
          ensures Get(r, p) == Get(s, p)
        {
          IndexOfUpdate(s.nodes, i, node, p);
        }
      }
      IndexOfUpdate(s.nodes, i, node, node.peerId);
      r
  }

  lemma {:induction false} IndexOfPrefix(a: seq<RemoteNode>, b: seq<RemoteNode>, p: string)
    requires forall k :: 0 <= k < |b| ==> b[k].peerId != p
    ensures IndexOf(a + b, p) == IndexOf(a, p)
  {
    if |a| > 0 {
      assert (a + b)[1..] == a[1..] + b;
      IndexOfPrefix(a[1..], b, p);
    } else {
      assert a + b == b;
    }
  }

  lemma {:induction false} IndexOfUpdate(nodes: seq<RemoteNode>, i: nat, node: RemoteNode, p: string)
    requires i < |nodes| && nodes[i].peerId == node.peerId
    ensures IndexOf(nodes[i := node], p) == IndexOf(nodes, p)
  {
    if i > 0 {
      assert nodes[i := node][1..] == nodes[1..][i - 1 := node];
      IndexOfUpdate(nodes[1..], i - 1, node, p);
    }
  }

  /** `r` is `nodes` with some members left out: same order, and no
      member more often than in `nodes`. */
  ghost predicate Subsequence(r: seq<RemoteNode>, nodes: seq<RemoteNode>)
    decreases |nodes|
  {
    if |nodes| == 0 then r == []
    else Subsequence(r, nodes[1..]) || (|r| > 0 && r[0] == nodes[0] && Subsequence(r[1..], nodes[1..]))
  }

  /** The members satisfying `keep`, in set order. */
  function Filter(nodes: seq<RemoteNode>, keep: RemoteNode -> bool): (r: seq<RemoteNode>)
    ensures forall x :: x in r <==> x in nodes && keep(x)
    ensures Subsequence(r, nodes)
    ensures |r| <= |nodes|
  {
    if |nodes| == 0 then []
    else
      var rest := Filter(nodes[1..], keep);
      if keep(nodes[0]) then
        assert ([nodes[0]] + rest)[1..] == rest;
        [nodes[0]] + rest
      else rest
  }

  /** Filtering a concatenation filters each part. */
  lemma {:induction false} FilterAppend(a: seq<RemoteNode>, b: seq<RemoteNode>, keep: RemoteNode -> bool)
    ensures Filter(a + b, keep) == Filter(a, keep) + Filter(b, keep)
  {
    if |a| == 0 {
      assert a + b == b;
    } else {
      assert (a + b)[0] == a[0];
      assert (a + b)[1..] == a[1..] + b;
      FilterAppend(a[1..], b, keep);
    }
  }

  /** A filter that keeps every member changes nothing. */
  lemma {:induction false} FilterKeepsAll(nodes: seq<RemoteNode>, keep: RemoteNode -> bool)
    ensures (forall k :: 0 <= k < |nodes| ==> keep(nodes[k])) ==> Filter(nodes, keep) == nodes
  {
    if |nodes| > 0 && forall k :: 0 <= k < |nodes| ==> keep(nodes[k]) {
      assert forall k :: 0 <= k < |nodes[1..]| ==> keep(nodes[1..][k]) by {
        forall k | 0 <= k < |nodes[1..]|
          ensures keep(nodes[1..][k])
        {
          assert nodes[1..][k] == nodes[k + 1];
        }
      }
      FilterKeepsAll(nodes[1..], keep);
      assert keep(nodes[0]);
      assert [nodes[0]] + nodes[1..] == nodes;
    }
  }

  /** The selection criteria, named so that a statement about a filter and
      the filter an operation applies are about the same function. */
  function Other(peerId: string): RemoteNode -> bool {
    (n: RemoteNode) => n.peerId != peerId
  }

  function AtLeast(height: nat): RemoteNode -> bool {
    (n: RemoteNode) => n.height >= height
  }

  function IdleAtLeast(height: nat): RemoteNode -> bool {
    (n: RemoteNode) => n.idle && n.height >= height
  }

  function Below(height: nat): RemoteNode -> bool {
    (n: RemoteNode) => n.height < height
  }

  function OneBehind(height: nat): RemoteNode -> bool {
    (n: RemoteNode) => n.height + 1 == height
  }

  /** `delete(node)`: removes the member with that node's id and nothing
      else, keeping the order of the rest. */
  function Delete(s: NodeSet, node: RemoteNode): (r: NodeSet)
    ensures Valid(s) ==> Valid(r)
    ensures !Contains(r, node.peerId)
    ensures forall x :: x in r.nodes <==> x in s.nodes && x.peerId != node.peerId
    ensures Subsequence(r.nodes, s.nodes)
    ensures !Contains(s, node.peerId) ==> r == s
  {
    var r := NodeSet(Filter(s.nodes, Other(node.peerId)));
    FilterValid(s.nodes, Other(node.peerId));
    FilterKeepsAll(s.nodes, Other(node.peerId));
    assert forall i :: 0 <= i < |r.nodes| ==> r.nodes[i] in r.nodes;
    r
  }

  lemma {:induction false} FilterValid(nodes: seq<RemoteNode>, keep: RemoteNode -> bool)
    ensures Valid(NodeSet(nodes)) ==> Valid(NodeSet(Filter(nodes, keep)))
  {
    if |nodes| > 0 && Valid(NodeSet(nodes)) {
      FilterValid(nodes[1..], keep);
      var rest := Filter(nodes[1..], keep);
      forall x | x in rest
        ensures x.peerId != nodes[0].peerId
      {
        assert x in nodes[1..];
      }
    }
  }

  /** Deleting a peer just added to a set that did not know it gives the
      set back, order included. */
  lemma DeleteUndoesAdd(s: NodeSet, node: RemoteNode)
    requires !Contains(s, node.peerId)
    ensures Delete(Add(s, node), node) == s
  {
    var keep := Other(node.peerId);
    FilterAppend(s.nodes, [node], keep);
    FilterKeepsAll(s.nodes, keep);
    assert Filter([node], keep) == [];
  }

  /** The test's three-peer walk-through: insertion order is kept and
      deleting one peer leaves the others in place. */
  lemma AddGetDeleteExample()
    ensures var n1 := NewNode("peer1", 0);
      var n2 := NewNode("peer2", 2);
      var n3 := NewNode("peer3", 1);
      var s := Add(Add(Add(EmptySet, n1), n2), n3);
      && Size(s) == 3
      && s.nodes == [n1, n2, n3]
      && Get(s, "peer3") == Some(n3)
      && Get(s, "peer4") == None
      && Delete(s, n3).nodes == [n1, n2]
      && Get(Delete(s, n3), "peer3") == None
  {
    var n1 := NewNode("peer1", 0);
    var n2 := NewNode("peer2", 2);
    var n3 := NewNode("peer3", 1);
    assert "peer1" != "peer2" && "peer1" != "peer3" && "peer2" != "peer3";
    AddFresh(EmptySet, n1);
    var s1 := Add(EmptySet, n1);
    AddFresh(s1, n2);
    var s2 := Add(s1, n2);
    assert s2.nodes == [n1, n2];
    AddFresh(s2, n3);
    var s := Add(s2, n3);
    GetExample(s);
    DeleteExample(s);
  }

  /** Adding an unknown peer id appends. */
  lemma AddFresh(s: NodeSet, node: RemoteNode)
    requires forall k :: 0 <= k < |s.nodes| ==> s.nodes[k].peerId != node.peerId
    ensures Add(s, node).nodes == s.nodes + [node]
  {
  }

  lemma GetExample(s: NodeSet)
    requires s.nodes == [NewNode("peer1", 0), NewNode("peer2", 2), NewNode("peer3", 1)]
    ensures Get(s, "peer3") == Some(NewNode("peer3", 1))
    ensures Get(s, "peer4") == None
  {
    assert !Contains(s, "peer4") by {
      assert "peer4" != "peer1" && "peer4" != "peer2" && "peer4" != "peer3";
    }
    assert s.nodes[2] == NewNode("peer3", 1);
    assert Contains(s, "peer3");
    assert "peer1" != "peer3" && "peer2" != "peer3";
  }

  lemma DeleteExample(s: NodeSet)
    requires s.nodes == [NewNode("peer1", 0), NewNode("peer2", 2), NewNode("peer3", 1)]
    ensures Delete(s, NewNode("peer3", 1)).nodes == [NewNode("peer1", 0), NewNode("peer2", 2)]
  {
    var n1 := NewNode("peer1", 0);
    var n2 := NewNode("peer2", 2);
    var n3 := NewNode("peer3", 1);
    assert [n1, n2, n3][1..] == [n2, n3];
    assert [n2, n3][1..] == [n3];
    assert "peer1" != "peer3" && "peer2" != "peer3";
    assert Filter([n3], Other("peer3")) == [];
    assert Filter([n2, n3], Other("peer3")) == [n2];
    assert Filter([n1, n2, n3], Other("peer3")) == [n1, n2];
  }

  // ---------------------------------------------------------------------
  // Exclusive use
  // ---------------------------------------------------------------------

  /** Start of `node.use(task)`: the node is busy until the task settles. */
  function Use(s: NodeSet, peerId: string): (r: NodeSet)
    requires Valid(s)
    ensures Valid(r)
    ensures Get(s, peerId).Some? ==> Get(r, peerId) == Some(Get(s, peerId).value.(idle := false))
    ensures Get(s, peerId).None? ==> r == s
  {
    match Get(s, peerId)
    case None => s
    case Some(n) => Add(s, n.(idle := false))
  }

  /** End of `node.use(task)`: the node is idle again. */
  function Release(s: NodeSet, peerId: string): (r: NodeSet)
    requires Valid(s)
    ensures Valid(r)
    ensures Get(s, peerId).Some? ==> Get(r, peerId) == Some(Get(s, peerId).value.(idle := true))
    ensures Get(s, peerId).None? ==> r == s
  {
    match Get(s, peerId)
    case None => s
    case Some(n) => Add(s, n.(idle := true))
  }

  // ---------------------------------------------------------------------
  // Selection
  // ---------------------------------------------------------------------

  /** `bestNode()`: a member of greatest height, the first one in set order
      among equals; undefined for an empty set. */
  method BestNode(s: NodeSet) returns (r: Option<RemoteNode>)
    ensures r.None? <==> |s.nodes| == 0
    ensures r.Some? ==> r.value in s.nodes
    ensures r.Some? ==> forall x :: x in s.nodes ==> x.height <= r.value.height
    ensures r.Some? ==> exists i :: (0 <= i < |s.nodes| && s.nodes[i] == r.value &&
      forall k :: 0 <= k < i ==> s.nodes[k].height < r.value.height)
  {
    if |s.nodes| == 0 {
      return None;
    }
    var best := 0;
    var i := 1;
    while i < |s.nodes|
      invariant 1 <= i <= |s.nodes|
      invariant 0 <= best < i
      invariant forall k :: 0 <= k < i ==> s.nodes[k].height <= s.nodes[best].height
      invariant forall k :: 0 <= k < best ==> s.nodes[k].height < s.nodes[best].height
    {
      if s.nodes[i].height > s.nodes[best].height {
        best := i;
      }
      i := i + 1;
    }
    return Some(s.nodes[best]);
  }

  /** Element `seed mod |candidates|`: one arbitrary candidate. */
  function Choose(candidates: seq<RemoteNode>, seed: nat): (r: Option<RemoteNode>)
    ensures r.None? <==> |candidates| == 0
    ensures r.Some? ==> r.value in candidates
  {
    if |candidates| == 0 then None else Some(candidates[seed % |candidates|])
  }

  /** Every candidate is some seed's choice: the choice is not biased away
      from any qualifying member. */
  lemma ChooseReachesAll(candidates: seq<RemoteNode>, x: RemoteNode)
    requires x in candidates
    ensures exists seed: nat :: Choose(candidates, seed) == Some(x)
  {
    var i :| 0 <= i < |candidates| && candidates[i] == x;
    assert i % |candidates| == i;
    assert Choose(candidates, i) == Some(x);
  }

  /** `pickProvider(height)`: a member at or above `height`, undefined
      when there is none. */
  function PickProvider(s: NodeSet, height: nat, seed: nat): (r: Option<RemoteNode>)
    ensures r.None? <==> forall x :: x in s.nodes ==> x.height < height
    ensures r.Some? ==> r.value in s.nodes && r.value.height >= height
  {
    Choose(Filter(s.nodes, AtLeast(height)), seed)
  }

  /** `pickIdleProvider(height)`: like `pickProvider`, skipping busy members. */
  function PickIdleProvider(s: NodeSet, height: nat, seed: nat): (r: Option<RemoteNode>)
    ensures r.None? <==> forall x :: x in s.nodes ==> x.height < height || !x.idle
    ensures r.Some? ==> r.value in s.nodes && r.value.height >= height && r.value.idle
  {
    Choose(Filter(s.nodes, IdleAtLeast(height)), seed)
  }

  /** A member that is in use is never picked as idle provider, whatever
      the random choice. */
  lemma InUseNeverPicked(s: NodeSet, peerId: string, height: nat, seed: nat)
    requires Valid(s)
    ensures var r := PickIdleProvider(Use(s, peerId), height, seed);
      r.Some? ==> r.value.peerId != peerId
  {
    var u := Use(s, peerId);
    var r := PickIdleProvider(u, height, seed);
    if r.Some? && r.value.peerId == peerId {
      assert Contains(u, peerId);
      UniqueById(u, r.value, Get(u, peerId).value);
    }
  }

  /** A released member at or above the height is again a possible pick. */
  lemma ReleasedCanBePicked(s: NodeSet, peerId: string, height: nat)
    requires Valid(s) && Get(s, peerId).Some? && Get(s, peerId).value.height >= height
    ensures exists seed: nat ::
      PickIdleProvider(Release(s, peerId), height, seed) == Some(Get(s, peerId).value.(idle := true))
  {
    var v := Release(s, peerId);
    var m := Get(s, peerId).value.(idle := true);
    assert m in v.nodes;
    ChoosableMember(v.nodes, IdleAtLeast(height), m);
    var i: nat :| Choose(Filter(v.nodes, IdleAtLeast(height)), i) == Some(m);
    assert PickIdleProvider(v, height, i) == Some(m);
  }

  /** A member that meets a criterion is the choice of some seed among the
      members meeting it. */
  lemma ChoosableMember(nodes: seq<RemoteNode>, keep: RemoteNode -> bool, m: RemoteNode)
    requires m in nodes && keep(m)
    ensures exists seed: nat :: Choose(Filter(nodes, keep), seed) == Some(m)
  {
    ChooseReachesAll(Filter(nodes, keep), m);
  }

  /** In a valid set a member is determined by its peer id. */
  lemma UniqueById(s: NodeSet, a: RemoteNode, b: RemoteNode)
    requires Valid(s) && a in s.nodes && b in s.nodes && a.peerId == b.peerId
    ensures a == b
  {
  }

  /** Draws `count` members without replacement: each round takes element
      `seed mod size` of what is left. Stops early when nothing is left. */
  function Sample(pool: seq<RemoteNode>, count: nat, seeds: seq<nat>): (r: seq<RemoteNode>)
    ensures |r| == if count <= |pool| then count else |pool|
    ensures multiset(r) <= multiset(pool)
    decreases count
  {
    if count == 0 || |pool| == 0 then []
    else
      var seed := if |seeds| > 0 then seeds[0] else 0;
      var i := seed % |pool|;
      var rest := pool[..i] + pool[i + 1..];
      assert pool == pool[..i] + [pool[i]] + pool[i + 1..];
      [pool[i]] + Sample(rest, count - 1, if |seeds| > 0 then seeds[1..] else [])
  }

  lemma SampleMembers(pool: seq<RemoteNode>, count: nat, seeds: seq<nat>, x: RemoteNode)
    requires x in Sample(pool, count, seeds)
    ensures x in pool
  {
    var r := Sample(pool, count, seeds);
    assert x in multiset(r);
  }

  /** `pickTransactionReceivers`: `count` distinct members; with `count`
      equal to the size (exponent 1) that is every member. */
  function PickTransactionReceivers(s: NodeSet, count: nat, seeds: seq<nat>): (r: seq<RemoteNode>)
    ensures |r| == if count <= |s.nodes| then count else |s.nodes|
    ensures multiset(r) <= multiset(s.nodes)
  {
    Sample(s.nodes, count, seeds)
  }

  /** With exponent 1 every member receives the transaction. */
  lemma TransactionReceiversAll(s: NodeSet, seeds: seq<nat>)
    ensures multiset(PickTransactionReceivers(s, |s.nodes|, seeds)) == multiset(s.nodes)
  {
    var r := PickTransactionReceivers(s, |s.nodes|, seeds);
    assert |multiset(r)| == |multiset(s.nodes)|;
    MultisetSubEqual(multiset(r), multiset(s.nodes));
  }

  lemma MultisetSubEqual<T>(a: multiset<T>, b: multiset<T>)
    requires a <= b && |a| == |b|
    ensures a == b
  {
    var d := b - a;
    assert |b| == |a| + |d|;
    assert d == multiset{};
  }

  /** `pickBlockReceivers(knownHeight)`: `count` distinct members among those
      whose height is below `knownHeight`. */
  function PickBlockReceivers(s: NodeSet, knownHeight: nat, count: nat, seeds: seq<nat>): (r: seq<RemoteNode>)
    ensures forall x :: x in r ==> x in s.nodes && x.height < knownHeight
    ensures |r| == var behind := |Filter(s.nodes, Below(knownHeight))|;
      if count <= behind then count else behind
    ensures multiset(r) <= multiset(s.nodes)
  {
    var behind := Filter(s.nodes, Below(knownHeight));
    var r := Sample(behind, count, seeds);
    forall x | x in r
      ensures x in s.nodes && x.height < knownHeight
    {
      SampleMembers(behind, count, seeds, x);
    }
    FilterSubMultiset(s.nodes, Below(knownHeight));
    r
  }

  /** With the default exponent 1 every member below the known height
      receives the block. */
  lemma BlockReceiversAll(s: NodeSet, knownHeight: nat, seeds: seq<nat>)
    ensures var behind := Filter(s.nodes, Below(knownHeight));
      multiset(PickBlockReceivers(s, knownHeight, |behind|, seeds)) == multiset(behind)
  {
    var behind := Filter(s.nodes, Below(knownHeight));
    var r := PickBlockReceivers(s, knownHeight, |behind|, seeds);
    assert r == Sample(behind, |behind|, seeds);
    assert |multiset(r)| == |multiset(behind)|;
    MultisetSubEqual(multiset(r), multiset(behind));
  }

  lemma {:induction false} FilterSubMultiset(nodes: seq<RemoteNode>, keep: RemoteNode -> bool)
    ensures multiset(Filter(nodes, keep)) <= multiset(nodes)
  {
    if |nodes| > 0 {
      FilterSubMultiset(nodes[1..], keep);
      assert nodes == [nodes[0]] + nodes[1..];
    }
  }

  /** `pickConsensusReceivers(height)`: exactly the members one height
      behind, in set order. */
  function PickConsensusReceivers(s: NodeSet, consensusHeight: nat): (r: seq<RemoteNode>)
    ensures forall x :: x in r <==> x in s.nodes && x.height + 1 == consensusHeight
    ensures Subsequence(r, s.nodes)
    ensures Valid(s) ==> Valid(NodeSet(r))
  {
    FilterValid(s.nodes, OneBehind(consensusHeight));
    Filter(s.nodes, OneBehind(consensusHeight))
  }

  /** The selections on the test's set of heights {0, 2, 1}. */
  lemma SelectionExample(seed: nat, seeds: seq<nat>)
    ensures var n1 := NewNode("peer1", 0);
      var n2 := NewNode("peer2", 2);
      var n3 := NewNode("peer3", 1);
      var s := NodeSet([n1, n2, n3]);
      && PickProvider(s, 3, seed) == None
      && PickProvider(s, 2, seed) == Some(n2)
      && PickConsensusReceivers(s, 2) == [n3]
      && PickConsensusReceivers(s, 5) == []
      && (var r := PickBlockReceivers(s, 2, 1, seeds); |r| == 1 && (r[0] == n1 || r[0] == n3))
      && PickBlockReceivers(s, 1, 1, seeds) == [n1]
  {
    var s := NodeSet([NewNode("peer1", 0), NewNode("peer2", 2), NewNode("peer3", 1)]);
    ProviderExample(s, seed);
    ConsensusReceiversExample(s);
    BlockReceiversExample(s, seeds);
  }

  lemma ProviderExample(s: NodeSet, seed: nat)
    requires s.nodes == [NewNode("peer1", 0), NewNode("peer2", 2), NewNode("peer3", 1)]
    ensures PickProvider(s, 3, seed) == None
    ensures PickProvider(s, 2, seed) == Some(NewNode("peer2", 2))
  {
    var n2 := NewNode("peer2", 2);
    var n3 := NewNode("peer3", 1);
    assert s.nodes[1..] == [n2, n3];
    assert [n2, n3][1..] == [n3];
    assert Filter([n3], AtLeast(2)) == [];
    assert Filter([n2, n3], AtLeast(2)) == [n2];
    assert Filter(s.nodes, AtLeast(2)) == [n2];
  }

  lemma ConsensusReceiversExample(s: NodeSet)
    requires s.nodes == [NewNode("peer1", 0), NewNode("peer2", 2), NewNode("peer3", 1)]
    ensures PickConsensusReceivers(s, 2) == [NewNode("peer3", 1)]
    ensures PickConsensusReceivers(s, 5) == []
  {
    var n2 := NewNode("peer2", 2);
    var n3 := NewNode("peer3", 1);
    assert s.nodes[1..] == [n2, n3];
    assert [n2, n3][1..] == [n3];
    assert Filter([n3], OneBehind(2)) == [n3];
    assert Filter([n2, n3], OneBehind(2)) == [n3];
    assert Filter(s.nodes, OneBehind(2)) == [n3];
    assert Filter([n3], OneBehind(5)) == [];
    assert Filter([n2, n3], OneBehind(5)) == [];
    assert Filter(s.nodes, OneBehind(5)) == [];
  }

  lemma BlockReceiversExample(s: NodeSet, seeds: seq<nat>)
    requires s.nodes == [NewNode("peer1", 0), NewNode("peer2", 2), NewNode("peer3", 1)]
    ensures var r := PickBlockReceivers(s, 2, 1, seeds);
      |r| == 1 && (r[0] == NewNode("peer1", 0) || r[0] == NewNode("peer3", 1))
    ensures PickBlockReceivers(s, 1, 1, seeds) == [NewNode("peer1", 0)]
  {
    var n1 := NewNode("peer1", 0);
    var n2 := NewNode("peer2", 2);
    var n3 := NewNode("peer3", 1);
    assert s.nodes[1..] == [n2, n3];
    assert [n2, n3][1..] == [n3];
    assert Filter([n3], Below(1)) == [];
    assert Filter([n2, n3], Below(1)) == [];
    assert Filter(s.nodes, Below(1)) == [n1];
    assert Filter([n3], Below(2)) == [n3];
    assert Filter([n2, n3], Below(2)) == [n3];
    assert Filter(s.nodes, Below(2)) == [n1, n3];
    var r := PickBlockReceivers(s, 2, 1, seeds);
    assert r[0] in s.nodes && r[0].height < 2;
    var q := PickBlockReceivers(s, 1, 1, seeds);
    assert q[0] in s.nodes && q[0].height < 1;
  }
}

=== FILE: signature.dfy ===
/** The node's cryptographic value types: 32-byte keccak hashes and
    65-byte Ethereum-compatible recoverable signatures (64 bytes of
    secp256k1 signature followed by one V byte).

    keccak256 and secp256k1 are foreign libraries; they enter the model as
    function-typed parameters, so every statement below holds for any hash
    function and any signing/recovery primitive. */
module Cryptography {
  import opened Wrappers
  import opened Bytes

  // ---------------------------------------------------------------------
  // Hash
  // ---------------------------------------------------------------------

  const HashLength: nat := 32

  type Hash = b: seq<Byte> | |b| == HashLength witness Zeros(32)

  /** keccak256 over arbitrary bytes (`Hash.fromData`). */
  type Keccak = seq<Byte> -> Hash

  /** `Hash.zero`: the all-zero hash. */
  function ZeroHash(): (h: Hash)
    ensures forall i :: 0 <= i < |h| ==> h[i] == 0
  {
    Zeros(HashLength)
  }

  /** `Hash#toHexString`: 64 lower-case hexadecimal digits. */
  function ToHexString(h: Hash): (s: string)
    ensures |s| == 2 * HashLength
    ensures forall i :: 0 <= i < |s| ==> IsLowerHex(s[i])
  {
    ToHex(h)
  }

  datatype CryptoError =
    | WrongLength          // the `TypeError` of a fixed-width constructor
    | InvalidV             // 'invalid signature. V must be 27 or 28.'
    | RecoveryFailed       // 'couldn't recover public key from signature'
    | ShortRead            // the reader holds fewer bytes than requested

  /** `Hash.fromHexString`: Node's hex decoding followed by the 32-byte
      length check of the fixed-width constructor. */
  function FromHexString(s: string): (r: Result<Hash, CryptoError>)
    ensures r.Ok? <==> |FromHex(s)| == HashLength
    ensures r.Ok? ==> |s| >= 2 * HashLength && r.value == FromHex(s)
    ensures r.Err? ==> r.error == WrongLength
  {
    var bytes := FromHex(s);
    if |bytes| == HashLength then Ok(bytes) else Err(WrongLength)
  }

  /** A hash survives the hex round trip. */
  lemma HexRoundTrip(h: Hash)
    ensures FromHexString(ToHexString(h)) == Ok(h)
  {
    FromHexToHex(h);
  }

  lemma ZeroHashHex()
    ensures ToHexString(ZeroHash()) == seq(64, _ => '0')
    ensures FromHexString(seq(64, _ => '0')) == Ok(ZeroHash())
  {
    var z := ZeroHash();
    ToHexZeros(32);
    HexRoundTrip(z);
  }

  lemma {:induction false} ToHexZeros(n: nat)
    ensures ToHex(Zeros(n)) == seq(2 * n, _ => '0')
  {
    if n > 0 {
      assert Zeros(n)[1..] == Zeros(n - 1);
      ToHexZeros(n - 1);
    }
  }

  // ---------------------------------------------------------------------
  // Signature
  // ---------------------------------------------------------------------

  const SignatureLength: nat := 65
  const RecoveryOffset: nat := 64

  /** The constructor's acceptance test on a raw buffer. */
  predicate WellFormed(buffer: seq<Byte>) {
    |buffer| == SignatureLength && (buffer[RecoveryOffset] == 27 || buffer[RecoveryOffset] == 28)
  }

  datatype SignatureBuffer = Signature(buffer: seq<Byte>)

  /** A constructed `Signature`: only well-formed buffers get through. */
  type Signature = s: SignatureBuffer | WellFormed(s.buffer)
    witness Signature(Zeros(64) + [27])

  /** The `Signature` constructor: rejects a buffer that is not 65 bytes
      long, then one whose V byte (offset 64) is neither 27 nor 28. */
  function NewSignature(buffer: seq<Byte>): (r: Result<Signature, CryptoError>)
    ensures r.Ok? <==> WellFormed(buffer)
    ensures r.Ok? ==> r.value.buffer == buffer
    ensures |buffer| != SignatureLength ==> r == Err(WrongLength)
    ensures |buffer| == SignatureLength && !WellFormed(buffer) ==> r == Err(InvalidV)
  {
    if |buffer| != SignatureLength then Err(WrongLength)
    else if !(buffer[RecoveryOffset] == 27 || buffer[RecoveryOffset] == 28) then Err(InvalidV)
    else Ok(Signature(buffer))
  }

  /** The `signature` getter: the 64 curve-signature bytes. */
  function SignatureBytes(sig: Signature): (b: seq<Byte>)
    ensures |b| == 64
    ensures b + [Recovery(sig)] == sig.buffer
  {
    sig.buffer[..RecoveryOffset]
  }

  /** The `recovery` getter: the V byte. */
  function Recovery(sig: Signature): (v: Byte)
    ensures v == 27 || v == 28
  {
    sig.buffer[RecoveryOffset]
  }

  /** The signature's own `hash` is keccak of the whole 65-byte buffer, so
      it commits to the recovery byte as well as to the 64 signature bytes. */
  function SignatureHash(keccak: Keccak, sig: Signature): (h: Hash)
    ensures h == keccak(SignatureBytes(sig) + [Recovery(sig)])
  {
    keccak(sig.buffer)
  }

  /** What secp256k1's `sign` hands back: 64 signature bytes and a recovery
      id, which the curve allows to be 0 to 3. */
  datatype EcdsaOutput = EcdsaOutput(signature: seq<Byte>, recovery: nat)

  predicate ValidEcdsaOutput(o: EcdsaOutput) {
    |o.signature| == 64 && o.recovery < 4
  }

  type EcdsaSign = (Hash, Hash) -> EcdsaOutput

  /** secp256k1 `recover(digest, signature, recid, false)`; `None` when the
      library throws. Yields the uncompressed public key: a prefix byte and
      the 64 key bytes. */
  type EcdsaRecover = (Hash, seq<Byte>, nat) -> Option<seq<Byte>>

  /** V encoding of the Ethereum Yellow Paper (appendix F): recovery id
      0/1 becomes 27/28. */
  function EncodeV(recoveryId: nat): nat {
    recoveryId + 27
  }

  /** The decoding `recover` applies to a V byte: `(V + 1) % 2`. */
  function DecodeV(v: nat): (id: nat)
    ensures id < 2
  {
    (v + 1) % 2
  }

  /** The two encodings are inverse on their domains. */
  lemma VEncodingInverse(id: nat, v: nat)
    ensures id < 2 ==> DecodeV(EncodeV(id)) == id
    ensures (v == 27 || v == 28) ==> EncodeV(DecodeV(v)) == v
  {
  }

  /** `Signature.sign`: the curve signature followed by V = id + 27,
      passed through the constructor, which rejects recovery ids 2 and 3. */
  function Sign(ecdsa: EcdsaSign, digest: Hash, privateKey: Hash): (r: Result<Signature, CryptoError>)
    requires ValidEcdsaOutput(ecdsa(digest, privateKey))
    ensures var o := ecdsa(digest, privateKey);
            && (r.Ok? <==> o.recovery < 2)
            && (r.Ok? ==> SignatureBytes(r.value) == o.signature && DecodeV(Recovery(r.value)) == o.recovery)
            && (r.Err? ==> r.error == InvalidV)
  {
    var o := ecdsa(digest, privateKey);
    NewSignature(o.signature + [EncodeV(o.recovery)])
  }

  /** The `Bytes64` built from a recovered key without its prefix byte;
      a throw anywhere becomes the one recovery error. */
  function KeyBytes(recovered: Option<seq<Byte>>): Result<seq<Byte>, CryptoError> {
    match recovered
    case Some(pub) => if |pub| >= 1 && |pub[1..]| == 64 then Ok(pub[1..]) else Err(RecoveryFailed)
    case None => Err(RecoveryFailed)
  }

  /** `Signature#recover`: hands secp256k1 the decoded recovery id and keeps
      the 64 key bytes after the prefix byte. */
  function Recover(ecrecover: EcdsaRecover, sig: Signature, digest: Hash): (r: Result<seq<Byte>, CryptoError>)
    ensures var raw := ecrecover(digest, SignatureBytes(sig), DecodeV(Recovery(sig)));
      && (r.Ok? <==> raw.Some? && |raw.value| == 65)
      && (r.Ok? ==> r.value == raw.value[1..])
    ensures r.Ok? ==> |r.value| == 64
    ensures r.Err? ==> r.error == RecoveryFailed
  {
    KeyBytes(ecrecover(digest, SignatureBytes(sig), (Recovery(sig) + 1) % 2))
  }

  /** Signing then recovering asks the curve library exactly the question
      its own signing answered: the same 64 bytes and the same recovery id. */
  lemma SignThenRecover(ecdsa: EcdsaSign, ecrecover: EcdsaRecover, digest: Hash, privateKey: Hash)
    requires ValidEcdsaOutput(ecdsa(digest, privateKey))
    requires ecdsa(digest, privateKey).recovery < 2
    ensures Sign(ecdsa, digest, privateKey).Ok?
    ensures var o := ecdsa(digest, privateKey);
            var sig := Sign(ecdsa, digest, privateKey).value;
            Recover(ecrecover, sig, digest) == KeyBytes(ecrecover(digest, o.signature, o.recovery))
  {
  }

  /** `Signature#serialize`: appends the buffer to the writer's bytes. */
  function Serialize(writer: seq<Byte>, sig: Signature): (out: seq<Byte>)
    ensures |out| == |writer| + SignatureLength
    ensures out[..|writer|] == writer && out[|writer|..] == sig.buffer
  {
    writer + sig.buffer
  }

  /** `Signature.deserialize`: consumes exactly 65 bytes of the reader and
      runs them through the constructor. Returns the signature and the
      unread rest. */
  function Deserialize(reader: seq<Byte>): (r: Result<(Signature, seq<Byte>), CryptoError>)
    ensures |reader| < SignatureLength ==> r == Err(ShortRead)
    ensures r.Ok? ==> r.value.0.buffer + r.value.1 == reader && |r.value.1| == |reader| - SignatureLength
    ensures |reader| >= SignatureLength ==> (r.Ok? <==> WellFormed(reader[..SignatureLength]))
    ensures |reader| >= SignatureLength && !WellFormed(reader[..SignatureLength]) ==> r == Err(InvalidV)
  {
    if |reader| < SignatureLength then Err(ShortRead)
    else
      var sig :- NewSignature(reader[..SignatureLength]);
      Ok((sig, reader[SignatureLength..]))
  }

  lemma SerializeRoundTrip(sig: Signature, rest: seq<Byte>)
    ensures Deserialize(Serialize([], sig) + rest) == Ok((sig, rest))
  {
    var bytes := Serialize([], sig) + rest;
    assert bytes[..SignatureLength] == sig.buffer;
    assert bytes[SignatureLength..] == rest;
  }

  /** `Signature#equals`: byte-wise buffer comparison. */
  function Equals(a: Signature, b: Signature): (r: bool)
    ensures r <==> a == b
    ensures r <==> forall i :: 0 <= i < SignatureLength ==> a.buffer[i] == b.buffer[i]
  {
    a.buffer == b.buffer
  }
}

=== FILE: validator.dfy ===
/** The validator node's block pipeline against the test application of
    its own test suite, `MockDapp`, whose state hash is the keccak hash of
    the text "state: <number of executed transactions>".

    A node holds its chain of blocks (the genesis block first), how many of
    them the application has executed, the application and the pool of
    pending transactions. A block's `appStateHash` is the application's
    hash after executing every block below it, so a block of transactions
    is followed by a proof block that carries the state they produced.

    Only the rule the suite pins down is modelled: the consensus round of a
    single validator holding all voting power commits a proposal at once,
    and timestamps, signatures and the other header fields are left to the
    chain ledger module. */
module Validator {
  import opened Wrappers
  import opened Bytes
  import opened Cryptography

  datatype Transaction = Transaction(nonce: nat, data: string)

  datatype Block = Block(height: nat, transactions: seq<Transaction>, appStateHash: Hash)

  /** The suite's application: it counts executed transactions and blocks. */
  datatype MockDapp = MockDapp(txCount: nat, height: nat)

  function StateText(dapp: MockDapp): (s: string)
    ensures IsAscii(s)
  {
    "state: " + Decimal(dapp.txCount)
  }

  /** `appState.hash`: `Hash.fromData` of the state text. */
  function AppHash(keccak: Keccak, dapp: MockDapp): Hash {
    keccak(Ascii(StateText(dapp)))
  }

  /** `MockDapp.execute`: one more block, and one more count per transaction. */
  function Execute(dapp: MockDapp, transactions: seq<Transaction>): (r: MockDapp)
    ensures r.txCount == dapp.txCount + |transactions|
    ensures r.height == dapp.height + 1
  {
    MockDapp(dapp.txCount + |transactions|, dapp.height + 1)
  }

  datatype Node = Node(
    initialized: bool,
    blocks: seq<Block>,
    executed: nat,
    dapp: MockDapp,
    pool: seq<Transaction>)

  /** A validator over a chain holding only its genesis block. */
  function NewNode(genesis: Block, dapp: MockDapp): (n: Node)
    ensures !n.initialized && n.blocks == [genesis] && n.executed == 0 && n.pool == []
  {
    Node(false, [genesis], 0, dapp, [])
  }

  function Height(n: Node): nat {
    |n.blocks|
  }

  datatype NodeError =
    | NotInitialized   // 'not initialized'
    | NeedResetApp     // 'need reset app': the application is ahead of the chain
    | NotExecuted      // a block is proposed before the tip is executed
    | AllExecuted      // nothing is left to execute
    | HeightMismatch   // 'block height mismatch'
    | InvalidBlock     // 'invalid block'
    | NotNextBlock     // a reached block above the next height
    | Unsteady         // the step bound ran out before the node settled

  /** A step's new node and its outcome: a failed step may already have
      changed the node, as the application executes before it is checked. */
  datatype Step<T> = Step(node: Node, result: Result<T, NodeError>)

  // ---------------------------------------------------------------------
  // Pipeline stages
  // ---------------------------------------------------------------------

  /** `initialize`: connects to the application and takes its height as the
      executed height; an application ahead of the chain cannot be used. */
  function Initialize(n: Node): (s: Step<()>)
    ensures s.result.Err? <==> n.dapp.height > Height(n)
    ensures s.result.Err? ==> s.result.error == NeedResetApp && s.node == n
    ensures s.result.Ok? ==> s.node.initialized && s.node.executed == n.dapp.height <= Height(n)
    ensures s.node.blocks == n.blocks && s.node.dapp == n.dapp && s.node.pool == n.pool
  {
    if n.dapp.height > Height(n) then Step(n, Err(NeedResetApp))
    else Step(n.(initialized := true, executed := n.dapp.height), Ok(()))
  }

  /** `executeBlockTransactions`: runs the lowest unexecuted block through
      the application, then checks that the application now reports exactly
      that block's height. */
  function ExecuteBlockTransactions(n: Node): (s: Step<()>)
    ensures !n.initialized ==> s == Step(n, Err(NotInitialized))
    ensures n.initialized && n.executed >= Height(n) ==> s == Step(n, Err(AllExecuted))
    ensures s.result == Err(HeightMismatch) <==>
      (n.initialized && n.executed < Height(n) && n.dapp.height != n.executed)
    ensures s.result.Ok? ==> s.node.executed == n.executed + 1 && s.node.dapp.height == s.node.executed
    ensures n.initialized && n.executed < Height(n) ==>
      s.node.dapp == Execute(n.dapp, n.blocks[n.executed].transactions)
    ensures s.node.blocks == n.blocks && s.node.pool == n.pool && s.node.initialized == n.initialized
  {
    if !n.initialized then Step(n, Err(NotInitialized))
    else if n.executed >= Height(n) then Step(n, Err(AllExecuted))
    else
      var dapp := Execute(n.dapp, n.blocks[n.executed].transactions);
      if dapp.height != n.executed + 1 then Step(n.(dapp := dapp), Err(HeightMismatch))
      else Step(n.(dapp := dapp, executed := n.executed + 1), Ok(()))
  }

  /** `constructBlock`: proposes the next block, holding the whole pool and
      the application's current state hash; only over an executed tip. */
  function ConstructBlock(keccak: Keccak, n: Node): (r: Result<Block, NodeError>)
    ensures !n.initialized ==> r == Err(NotInitialized)
    ensures n.initialized ==> (r.Ok? <==> n.executed >= Height(n))
    ensures n.initialized && n.executed < Height(n) ==> r == Err(NotExecuted)
    ensures r.Ok? ==> r.value.height == Height(n) + 1 && r.value.transactions == n.pool
    ensures r.Ok? ==> r.value.appStateHash == AppHash(keccak, n.dapp)
  {
    if !n.initialized then Err(NotInitialized)
    else if n.executed < Height(n) then Err(NotExecuted)
    else Ok(Block(Height(n) + 1, n.pool, AppHash(keccak, n.dapp)))
  }

  /** The pool once the transactions of a committed block are gone. */
  function Without(pool: seq<Transaction>, committed: seq<Transaction>): (r: seq<Transaction>)
    ensures forall t :: t in r <==> t in pool && t !in committed
    ensures |r| <= |pool|
    ensures (forall t :: t in pool ==> t in committed) ==> r == []
  {
    if |pool| == 0 then []
    else (if pool[0] in committed then [] else [pool[0]]) + Without(pool[1..], committed)
  }

  /** Appends a block and prunes its transactions from the pool. */
  function Commit(n: Node, b: Block): (r: Node)
    ensures r.blocks == n.blocks + [b]
    ensures forall t :: t in r.pool <==> t in n.pool && t !in b.transactions
    ensures r.initialized == n.initialized && r.executed == n.executed && r.dapp == n.dapp
  {
    n.(blocks := n.blocks + [b], pool := Without(n.pool, b.transactions))
  }

  /** A new block is due when transactions wait, or when the tip does not
      yet record the application's current state. */
  predicate NeedsBlock(keccak: Keccak, n: Node) {
    |n.pool| > 0 || |n.blocks| == 0 || n.blocks[|n.blocks| - 1].appStateHash != AppHash(keccak, n.dapp)
  }

  datatype Progress = Executed | Committed | Steady

  /** One round of `proceedConsensus`: execute the lowest unexecuted block;
      otherwise propose and commit a block when one is due; otherwise
      report that the node is steady. */
  function ProceedConsensus(keccak: Keccak, n: Node): (s: Step<Progress>)
    ensures !n.initialized ==> s == Step(n, Err(NotInitialized))
    ensures s.result == Ok(Executed) ==>
      s.node.executed == n.executed + 1 && s.node.blocks == n.blocks && s.node.pool == n.pool
    ensures s.result == Ok(Committed) ==>
      Height(s.node) == Height(n) + 1 && s.node.executed == n.executed && s.node.dapp == n.dapp &&
      s.node.blocks[Height(n)].appStateHash == AppHash(keccak, n.dapp) &&
      s.node.blocks[Height(n)].transactions == n.pool && s.node.pool == []
    ensures s.result == Ok(Steady) <==> n.initialized && n.executed >= Height(n) && !NeedsBlock(keccak, n)
    ensures s.result == Ok(Steady) ==> s.node == n
  {
    if !n.initialized then Step(n, Err(NotInitialized))
    else if n.executed < Height(n) then
      var s := ExecuteBlockTransactions(n);
      Step(s.node, if s.result.Ok? then Ok(Executed) else Err(s.result.error))
    else if NeedsBlock(keccak, n) then
      match ConstructBlock(keccak, n)
      case Ok(b) =>
        var r := Commit(n, b);
        Step(r, Ok(Committed))
      case Err(e) => Step(n, Err(e))
    else Step(n, Ok(Steady))
  }

  /** Executes every block not yet executed. */
  function CatchUp(n: Node): (s: Step<()>)
    ensures s.result.Ok? ==> s.node.initialized && s.node.executed >= Height(n)
    ensures s.node.blocks == n.blocks && s.node.pool == n.pool
    decreases |n.blocks| - n.executed
  {
    if !n.initialized then Step(n, Err(NotInitialized))
    else if n.executed >= Height(n) then Step(n, Ok(()))
    else
      var s := ExecuteBlockTransactions(n);
      if s.result.Err? then s else CatchUp(s.node)
  }

  /** `addReachedBlock`: a block at a known height must be the block held
      there, and is then accepted again without change; the next block is
      checked against the state the application reaches once every held
      block is executed, and is rejected as 'invalid block' when it claims
      another. */
  function AddReachedBlock(keccak: Keccak, n: Node, b: Block): (s: Step<()>)
    ensures 1 <= b.height <= Height(n) ==>
      s.node == n && (s.result.Ok? <==> n.blocks[b.height - 1] == b)
    ensures s.result.Err? && s.result.error == InvalidBlock ==> s.node.blocks == n.blocks
    ensures s.result.Ok? && b.height == Height(n) + 1 ==>
      && s.node.blocks == n.blocks + [b]
      && s.node.executed >= Height(n)
      && b.appStateHash == AppHash(keccak, s.node.dapp)
      && (forall t :: t in s.node.pool <==> t in n.pool && t !in b.transactions)
    ensures s.result.Ok? ==> 1 <= b.height <= Height(s.node) && s.node.blocks[b.height - 1] == b
    ensures b.height == 0 || b.height > Height(n) + 1 ==> s == Step(n, Err(NotNextBlock))
  {
    if 1 <= b.height <= Height(n) then
      if n.blocks[b.height - 1] == b then Step(n, Ok(())) else Step(n, Err(InvalidBlock))
    else if b.height != Height(n) + 1 then Step(n, Err(NotNextBlock))
    else
      var init := if n.initialized then Step(n, Ok(())) else Initialize(n);
      if init.result.Err? then init
      else
        var ran := CatchUp(init.node);
        if ran.result.Err? then ran
        else if b.appStateHash != AppHash(keccak, ran.node.dapp) then Step(ran.node, Err(InvalidBlock))
        else
          var r := Commit(ran.node, b);
          assert r.blocks[b.height - 1] == b;
          Step(r, Ok(()))
  }

  /** The rounds of `proceedConsensusUntilSteady` after initialization,
      bounded by `fuel`. */
  function Settle(keccak: Keccak, n: Node, fuel: nat): (s: Step<()>)
    ensures s.result.Ok? ==> Settled(keccak, s.node)
    ensures Height(s.node) >= Height(n)
    decreases fuel
  {
    if fuel == 0 then Step(n, Err(Unsteady))
    else
      var s := ProceedConsensus(keccak, n);
      match s.result
      case Err(e) => Step(s.node, Err(e))
      case Ok(Steady) => Step(s.node, Ok(()))
      case Ok(_) => Settle(keccak, s.node, fuel - 1)
  }

  /** Nothing left to do: every block executed and no block due. */
  predicate Settled(keccak: Keccak, n: Node) {
    n.initialized && n.executed >= Height(n) && !NeedsBlock(keccak, n)
  }

  /** `proceedConsensusUntilSteady`: initializes when needed, then runs
      rounds until the node is steady. */
  function UntilSteady(keccak: Keccak, n: Node, fuel: nat): (s: Step<()>)
    ensures s.result.Ok? ==> Settled(keccak, s.node)
    ensures !n.initialized && n.dapp.height > Height(n) ==> s == Step(n, Err(NeedResetApp))
    ensures Height(s.node) >= Height(n)
  {
    var init := if n.initialized then Step(n, Ok(())) else Initialize(n);
    if init.result.Err? then init else Settle(keccak, init.node, fuel)
  }

  /** `addTransaction`: a transaction joins the pool once. */
  function AddTransaction(n: Node, t: Transaction): (r: Node)
    ensures t in r.pool
    ensures |r.pool| == if t in n.pool then |n.pool| else |n.pool| + 1
    ensures forall u :: u in r.pool <==> u in n.pool || u == t
    ensures r.pool[..|n.pool|] == n.pool
    ensures r.blocks == n.blocks && r.executed == n.executed && r.dapp == n.dapp
    ensures r.initialized == n.initialized
  {
    if t in n.pool then n else n.(pool := n.pool + [t])
  }

  /** Pool entries are distinct, and `addTransaction` keeps them so. */
  lemma AddTransactionKeepsPoolDistinct(n: Node, t: Transaction)
    requires forall i, j :: 0 <= i < j < |n.pool| ==> n.pool[i] != n.pool[j]
    ensures var p := AddTransaction(n, t).pool;
      forall i, j :: 0 <= i < j < |p| ==> p[i] != p[j]
  {
  }

  // ---------------------------------------------------------------------
  // Honest chains
  // ---------------------------------------------------------------------

  /** The application after executing `blocks` from `origin`. */
  function Replay(origin: MockDapp, blocks: seq<Block>): (d: MockDapp)
    ensures d.height == origin.height + |blocks|
  {
    if |blocks| == 0 then origin
    else Execute(Replay(origin, blocks[..|blocks| - 1]), blocks[|blocks| - 1].transactions)
  }

  /** The node's state is what honest execution from `origin`, the
      application before the genesis block, produces: heights count up from
      1, the application is the replay of the executed prefix, and every
      block above genesis records the state its predecessors lead to. */
  ghost predicate Consistent(keccak: Keccak, origin: MockDapp, n: Node) {
    && origin.height == 0
    && |n.blocks| >= 1
    && (forall i :: 0 <= i < |n.blocks| ==> n.blocks[i].height == i + 1)
    && n.executed <= |n.blocks|
    && n.dapp == Replay(origin, n.blocks[..n.executed])
    && (forall k :: 1 <= k < |n.blocks| ==> n.blocks[k].appStateHash == AppHash(keccak, Replay(origin, n.blocks[..k])))
  }

  lemma NewNodeConsistent(keccak: Keccak, genesis: Block, dapp: MockDapp)
    requires genesis.height == 1 && dapp.height == 0
    ensures Consistent(keccak, dapp, NewNode(genesis, dapp))
  {
    assert [genesis][..0] == [];
  }

  /** In a consistent node the application is never ahead of the chain and
      never at the wrong height, so neither 'need reset app' nor 'block
      height mismatch' can occur. */
  lemma ConsistentNeverMismatches(keccak: Keccak, origin: MockDapp, n: Node)
    requires Consistent(keccak, origin, n)
    ensures Initialize(n).result.Ok?
    ensures ExecuteBlockTransactions(n).result != Err(HeightMismatch)
  {
  }

  lemma {:induction false} ExecutePreservesConsistent(keccak: Keccak, origin: MockDapp, n: Node)
    requires Consistent(keccak, origin, n)
    ensures Consistent(keccak, origin, ExecuteBlockTransactions(n).node)
  {
    var s := ExecuteBlockTransactions(n);
    if n.initialized && n.executed < Height(n) {
      assert n.blocks[..n.executed + 1][..n.executed] == n.blocks[..n.executed];
    }
  }

  lemma {:induction false} CatchUpPreservesConsistent(keccak: Keccak, origin: MockDapp, n: Node)
    requires Consistent(keccak, origin, n)
    ensures Consistent(keccak, origin, CatchUp(n).node)
    ensures n.initialized ==> CatchUp(n).result.Ok?
    decreases |n.blocks| - n.executed
  {
    if n.initialized && n.executed < Height(n) {
      ExecutePreservesConsistent(keccak, origin, n);
      CatchUpPreservesConsistent(keccak, origin, ExecuteBlockTransactions(n).node);
    }
  }

  lemma CommitPreservesConsistent(keccak: Keccak, origin: MockDapp, n: Node, b: Block)
    requires Consistent(keccak, origin, n)
    requires n.executed == Height(n) && b.height == Height(n) + 1
    requires b.appStateHash == AppHash(keccak, n.dapp)
    ensures Consistent(keccak, origin, Commit(n, b))
  {
    var r := Commit(n, b);
    assert r.blocks[..n.executed] == n.blocks[..n.executed];
    forall k | 1 <= k < |r.blocks|
      ensures r.blocks[k].appStateHash == AppHash(keccak, Replay(origin, r.blocks[..k]))
    {
      assert r.blocks[..k] == n.blocks[..k];
    }
  }

  lemma ProceedPreservesConsistent(keccak: Keccak, origin: MockDapp, n: Node)
    requires Consistent(keccak, origin, n)
    ensures Consistent(keccak, origin, ProceedConsensus(keccak, n).node)
  {
    ExecutePreservesConsistent(keccak, origin, n);
    if n.initialized && n.executed >= Height(n) && NeedsBlock(keccak, n) {
      CommitPreservesConsistent(keccak, origin, n, ConstructBlock(keccak, n).value);
    }
  }

  lemma {:induction false} SettlePreservesConsistent(keccak: Keccak, origin: MockDapp, n: Node, fuel: nat)
    requires Consistent(keccak, origin, n)
    ensures Consistent(keccak, origin, Settle(keccak, n, fuel).node)
    decreases fuel
  {
    if fuel > 0 {
      ProceedPreservesConsistent(keccak, origin, n);
      var s := ProceedConsensus(keccak, n);
      if s.result.Ok? && s.result.value != Steady {
        SettlePreservesConsistent(keccak, origin, s.node, fuel - 1);
      }
    }
  }

  /** Running the node to a steady state keeps its chain honest. */
  lemma UntilSteadyPreservesConsistent(keccak: Keccak, origin: MockDapp, n: Node, fuel: nat)
    requires Consistent(keccak, origin, n)
    ensures Consistent(keccak, origin, UntilSteady(keccak, n, fuel).node)
  {
    var init := if n.initialized then Step(n, Ok(())) else Initialize(n);
    SettlePreservesConsistent(keccak, origin, init.node, fuel);
  }

  /** The safety check: a consistent node accepts the next block exactly
      when its state hash is the one honest execution of the whole chain
      produces, and stays consistent either way. */
  lemma AddReachedBlockSafety(keccak: Keccak, origin: MockDapp, n: Node, b: Block)
    requires Consistent(keccak, origin, n)
    requires b.height == Height(n) + 1
    ensures AddReachedBlock(keccak, n, b).result.Ok? <==>
      b.appStateHash == AppHash(keccak, Replay(origin, n.blocks))
    ensures Consistent(keccak, origin, AddReachedBlock(keccak, n, b).node)
  {
    var init := if n.initialized then Step(n, Ok(())) else Initialize(n);
    CatchUpPreservesConsistent(keccak, origin, init.node);
    var ran := CatchUp(init.node);
    assert ran.node.blocks[..ran.node.executed] == n.blocks;
    if b.appStateHash == AppHash(keccak, ran.node.dapp) {
      CommitPreservesConsistent(keccak, origin, ran.node, b);
    }
  }

  /** Re-adding a block the node has accepted changes nothing. */
  lemma AddReachedBlockIdempotent(keccak: Keccak, n: Node, b: Block)
    requires AddReachedBlock(keccak, n, b).result.Ok?
    ensures var m := AddReachedBlock(keccak, n, b).node;
      AddReachedBlock(keccak, m, b) == Step(m, Ok(()))
  {
  }

  /** A block that differs from the one held at its height is refused with
      'invalid block' and the chain keeps its height. */
  lemma ConflictingBlockRejected(keccak: Keccak, n: Node, b: Block)
    requires 1 <= b.height <= Height(n) && n.blocks[b.height - 1] != b
    ensures AddReachedBlock(keccak, n, b) == Step(n, Err(InvalidBlock))
  {
  }

  // ---------------------------------------------------------------------
  // The suite's scenarios
  // ---------------------------------------------------------------------

  function StateHash(keccak: Keccak, txCount: nat): Hash {
    AppHash(keccak, MockDapp(txCount, 0))
  }

  lemma StateHashText(keccak: Keccak, dapp: MockDapp)
    ensures AppHash(keccak, dapp) == StateHash(keccak, dapp.txCount)
    ensures StateHash(keccak, 0) == keccak(Ascii("state: 0"))
    ensures StateHash(keccak, 1) == keccak(Ascii("state: 1"))
    ensures StateHash(keccak, 2) == keccak(Ascii("state: 2"))
  {
    assert Decimal(0) == "0" && Decimal(1) == "1" && Decimal(2) == "2";
    assert StateText(MockDapp(0, 0)) == "state: 0";
    assert StateText(MockDapp(1, 0)) == "state: 1";
    assert StateText(MockDapp(2, 0)) == "state: 2";
  }

  /** Guards on a fresh node: every stage but `initialize` needs
      initialization; right after it no block can be proposed because the
      genesis block is not executed; an application ahead of the chain
      stops `initialize`; an application whose height was moved stops
      execution. */
  lemma GuardExamples(keccak: Keccak, genesis: Block, dapp: MockDapp)
    requires genesis.height == 1
    ensures var n := NewNode(genesis, dapp);
      && ProceedConsensus(keccak, n).result == Err(NotInitialized)
      && ConstructBlock(keccak, n) == Err(NotInitialized)
      && ExecuteBlockTransactions(n).result == Err(NotInitialized)
      && (dapp.height == 0 ==> ConstructBlock(keccak, Initialize(n).node) == Err(NotExecuted))
      && (dapp.height == 10 ==> Initialize(n).result == Err(NeedResetApp))
      && (dapp.height == 0 ==>
           ExecuteBlockTransactions(Initialize(n).node.(dapp := dapp.(height := 1))).result == Err(HeightMismatch))
  {
  }

  /** Once steady every block is executed: asking to execute fails. */
  lemma SettledHasNothingToExecute(keccak: Keccak, n: Node)
    requires Settled(keccak, n)
    ensures ExecuteBlockTransactions(n) == Step(n, Err(AllExecuted))
  {
  }

  /** From the genesis block with two pooled transactions the node settles
      at height 3: block 2 holds both transactions and the state before
      them, block 3 the state after them, and the pool is empty. */
  lemma ProceedConsensusScenario(keccak: Keccak, g: Hash)
    requires StateHash(keccak, 0) != StateHash(keccak, 2)
    ensures var t1 := Transaction(1234, "Dapps transaction");
      var t2 := Transaction(1235, "Dapps transaction");
      var n := AddTransaction(AddTransaction(NewNode(Block(1, [], g), MockDapp(0, 0)), t1), t2);
      var s := UntilSteady(keccak, n, 10);
      && Height(n) == 1 && |n.pool| == 2
      && s.result.Ok?
      && Height(s.node) == 3
      && s.node.pool == []
      && s.node.blocks[1] == Block(2, [t1, t2], StateHash(keccak, 0))
      && s.node.blocks[2].appStateHash == StateHash(keccak, 2)
      && AppHash(keccak, s.node.dapp) == StateHash(keccak, 2)
  {
    var t1 := Transaction(1234, "Dapps transaction");
    var t2 := Transaction(1235, "Dapps transaction");
    var genesis := Block(1, [], g);
    var b2 := Block(2, [t1, t2], StateHash(keccak, 0));
    var b3 := Block(3, [], StateHash(keccak, 2));
    var n := AddTransaction(AddTransaction(NewNode(genesis, MockDapp(0, 0)), t1), t2);
    assert n.pool == [t1, t2];
    var n1 := Node(true, [genesis], 0, MockDapp(0, 0), [t1, t2]);
    assert Initialize(n) == Step(n1, Ok(()));
    var n2 := n1.(executed := 1, dapp := MockDapp(0, 1));
    assert ProceedConsensus(keccak, n1) == Step(n2, Ok(Executed));
    var n3 := n2.(blocks := [genesis, b2], pool := []);
    assert ProceedConsensus(keccak, n2) == Step(n3, Ok(Committed));
    var n4 := n3.(executed := 2, dapp := MockDapp(2, 2));
    assert ProceedConsensus(keccak, n3) == Step(n4, Ok(Executed));
    var n5 := n4.(blocks := [genesis, b2, b3]);
    assert AppHash(keccak, n4.dapp) == StateHash(keccak, 2);
    assert ProceedConsensus(keccak, n4) == Step(n5, Ok(Committed));
    var n6 := n5.(executed := 3, dapp := MockDapp(2, 3));
    assert ProceedConsensus(keccak, n5) == Step(n6, Ok(Executed));
    assert ProceedConsensus(keccak, n6) == Step(n6, Ok(Steady));
    assert Settle(keccak, n6, 4) == Step(n6, Ok(()));
    assert Settle(keccak, n5, 5) == Step(n6, Ok(()));
    assert Settle(keccak, n4, 6) == Step(n6, Ok(()));
    assert Settle(keccak, n3, 7) == Step(n6, Ok(()));
    assert Settle(keccak, n2, 8) == Step(n6, Ok(()));
    assert Settle(keccak, n1, 9) == Step(n6, Ok(()));
    assert Settle(keccak, n1, 10) == Step(n6, Ok(()));
  }

  /** A block reached from a peer that built it from the same two pooled
      transactions is accepted, leaves the pool empty and the application
      at the state before them; accepting it again changes nothing; and
      settling then adds the proof block carrying the state after them. */
  lemma AddReachedBlockScenario(keccak: Keccak, g: Hash)
    requires StateHash(keccak, 0) != StateHash(keccak, 2)
    ensures var t1 := Transaction(1234, "Dapps transaction");
      var t2 := Transaction(1235, "Dapps transaction");
      var n := AddTransaction(AddTransaction(NewNode(Block(1, [], g), MockDapp(0, 0)), t1), t2);
      var b2 := Block(2, [t1, t2], StateHash(keccak, 0));
      var a := AddReachedBlock(keccak, n, b2);
      && a.result.Ok?
      && Height(a.node) == 2
      && a.node.pool == []
      && AppHash(keccak, a.node.dapp) == StateHash(keccak, 0)
      && AddReachedBlock(keccak, a.node, b2) == Step(a.node, Ok(()))
      && UntilSteady(keccak, a.node, 10).result.Ok?
      && Height(UntilSteady(keccak, a.node, 10).node) == 3
      && AppHash(keccak, UntilSteady(keccak, a.node, 10).node.dapp) == StateHash(keccak, 2)
  {
    var t1 := Transaction(1234, "Dapps transaction");
    var t2 := Transaction(1235, "Dapps transaction");
    var genesis := Block(1, [], g);
    var b2 := Block(2, [t1, t2], StateHash(keccak, 0));
    var b3 := Block(3, [], StateHash(keccak, 2));
    var n := AddTransaction(AddTransaction(NewNode(genesis, MockDapp(0, 0)), t1), t2);
    assert n.pool == [t1, t2];
    var n1 := Node(true, [genesis], 0, MockDapp(0, 0), [t1, t2]);
    assert Initialize(n) == Step(n1, Ok(()));
    var n2 := n1.(executed := 1, dapp := MockDapp(0, 1));
    assert ExecuteBlockTransactions(n1) == Step(n2, Ok(()));
    assert CatchUp(n2) == Step(n2, Ok(()));
    assert CatchUp(n1) == Step(n2, Ok(()));
    var m := n2.(blocks := [genesis, b2], pool := []);
    assert AddReachedBlock(keccak, n, b2) == Step(m, Ok(()));
    var m1 := m.(executed := 2, dapp := MockDapp(2, 2));
    assert ProceedConsensus(keccak, m) == Step(m1, Ok(Executed));
    var m2 := m1.(blocks := [genesis, b2, b3]);
    assert AppHash(keccak, m1.dapp) == StateHash(keccak, 2);
    assert ProceedConsensus(keccak, m1) == Step(m2, Ok(Committed));
    var m3 := m2.(executed := 3, dapp := MockDapp(2, 3));
    assert ProceedConsensus(keccak, m2) == Step(m3, Ok(Executed));
    assert ProceedConsensus(keccak, m3) == Step(m3, Ok(Steady));
    assert Settle(keccak, m3, 7) == Step(m3, Ok(()));
    assert Settle(keccak, m2, 8) == Step(m3, Ok(()));
    assert Settle(keccak, m1, 9) == Step(m3, Ok(()));
    assert Settle(keccak, m, 10) == Step(m3, Ok(()));
  }

  /** With an empty pool a fresh node whose application state differs from
      the genesis block's record settles after one proof block. */
  lemma EmptyPoolSettles(keccak: Keccak, g: Hash, txCount: nat)
    requires g != StateHash(keccak, txCount)
    ensures var s := UntilSteady(keccak, NewNode(Block(1, [], g), MockDapp(txCount, 0)), 10);
      s.result.Ok? && s.node.blocks == [Block(1, [], g), Block(2, [], StateHash(keccak, txCount))]
  {
    var genesis := Block(1, [], g);
    var b2 := Block(2, [], StateHash(keccak, txCount));
    var n := NewNode(genesis, MockDapp(txCount, 0));
    StateHashText(keccak, MockDapp(txCount, 1));
    StateHashText(keccak, MockDapp(txCount, 2));
    var n1 := n.(initialized := true);
    assert Initialize(n) == Step(n1, Ok(()));
    var n2 := n1.(executed := 1, dapp := MockDapp(txCount, 1));
    assert ProceedConsensus(keccak, n1) == Step(n2, Ok(Executed));
    var n3 := n2.(blocks := [genesis, b2]);
    assert ProceedConsensus(keccak, n2) == Step(n3, Ok(Committed));
    var n4 := n3.(executed := 2, dapp := MockDapp(txCount, 2));
    assert ProceedConsensus(keccak, n3) == Step(n4, Ok(Executed));
    assert ProceedConsensus(keccak, n4) == Step(n4, Ok(Steady));
    assert Settle(keccak, n4, 7) == Step(n4, Ok(()));
    assert Settle(keccak, n3, 8) == Step(n4, Ok(()));
    assert Settle(keccak, n2, 9) == Step(n4, Ok(()));
    assert Settle(keccak, n1, 10) == Step(n4, Ok(()));
  }

  /** A peer whose application was tampered with (one transaction counted
      too many) builds a block at height 2 that an honest node, settled at
      the same height, refuses as 'invalid block' without moving. */
  lemma TamperedBlockScenario(keccak: Keccak, g: Hash)
    requires g != StateHash(keccak, 0) && g != StateHash(keccak, 1)
    requires StateHash(keccak, 0) != StateHash(keccak, 1)
    ensures var honest := UntilSteady(keccak, NewNode(Block(1, [], g), MockDapp(0, 0)), 10).node;
      var tampered := UntilSteady(keccak, NewNode(Block(1, [], g), MockDapp(1, 0)), 10).node;
      && Height(honest) == 2 && Height(tampered) == 2
      && AddReachedBlock(keccak, honest, tampered.blocks[1]) == Step(honest, Err(InvalidBlock))
  {
    EmptyPoolSettles(keccak, g, 0);
    EmptyPoolSettles(keccak, g, 1);
    var honest := UntilSteady(keccak, NewNode(Block(1, [], g), MockDapp(0, 0)), 10).node;
    var tampered := UntilSteady(keccak, NewNode(Block(1, [], g), MockDapp(1, 0)), 10).node;
    ConflictingBlockRejected(keccak, honest, tampered.blocks[1]);
  }
}

=== FILE: wrappers.dfy ===
/** Failure-compatible wrappers shared by every module of the model:
    `Option` for "value or nothing" and `Result` for the source's thrown
    errors and rejected promises. */
module Wrappers {

  datatype Option<+T> = None | Some(value: T) {

    predicate IsFailure() {
      None?
    }

    function PropagateFailure<U>(): Option<U>
      requires None?
    {
      None
    }

    function Extract(): T
      requires Some?
    {
      value
    }
  }

  /** `Err` stands for a thrown exception or a rejected promise. */
  datatype Result<+T, +E> = Ok(value: T) | Err(error: E) {

    predicate IsFailure() {
      Err?
    }

    function PropagateFailure<U>(): Result<U, E>
      requires Err?
    {
      Err(error)
    }

    function Extract(): T
      requires Ok?
    {
      value
    }
  }
}
